=== FILE: README.md ===
# BolingoPaccy payment reconciliation, modelled in Dafny

BolingoPaccy sells music albums and media through the Pesapal payment
gateway. This project models the part of it that keeps orders and payments
in agreement with the gateway:

- the order record store (`albums`, `orders`, `payments`, `pesapal_config`,
  `premium_access_logs`) with its enums and foreign keys;
- the four server functions: `create-order` (validate, record a pending
  order, submit it to the gateway), `pesapal-ipn-handler` (the gateway's
  notification callback), `verify-transaction` (the front end's polling
  check) and `register-ipn` (one-time registration of the callback URL);
- the payment-result page (`PaymentCallback.tsx`);
- the second, media-order flow: `api/checkout.ts`, the checkout page and
  `api/webhook.ts`, whose core is the duplicate-free merge of a buyer's
  `purchased_items`;
- the purchase gates of the album page and the premium page.

Every handler is a pure function `(store, request, replies) -> (store',
response, gateway calls)`. Whatever the handler cannot see is an input:
the gateway's replies, `Date.now()`, the digits `Math.random()` produces,
the id the database assigns to a new row, the database's column defaults,
the auth service's answers, and the faults of those writes whose errors the
code branches on. Writes whose errors the code ignores are modelled as
succeeding, except where a foreign or primary key would refuse them.

Single-row queries (`.single()`, `.maybeSingle()`) on `orders` and
`profiles` are modelled exactly: several matching rows are an error and
return no data. (`pesapal_config` holds one value per key; see "Left out".) This has visible
consequences that the model keeps: the notification handler treats a
merchant reference shared by two orders as unknown; the verifier inserts a
payment when an order has zero payments or two or more; the album and
premium pages treat a buyer with two completed orders for the same album as
not having bought it.

The verifier (`verify-transaction`) overwrites the order's status with
whatever the gateway reports, even for an order that is already completed,
and checks for an existing payment only by count. The lemma
`Reconciliation.VerifyThenCallbackCanPayTwice` shows a general scenario in
which this lets one order collect two payments: a verification reports
completion, a later one reports failure, and the next completed
notification then records a second payment. The notification handler alone
never does this (`Reconciliation.IpnKeepsPaymentInvariants`).

The album page's effect runs again whenever the route id or the signed-in
user changes, and it looks up the purchase only for a signed-in user. A
visitor who signs out on a bought album's page therefore keeps the album
unlocked (`AlbumDetail.SignOutKeepsPurchase`).

## Model

| member | source | states |
|---|---|---|
| Common.Or | supabase/functions/verify-transaction/index.ts:30-31 | `a || b` on optional strings is the first operand when it is truthy and the second operand otherwise, so it is truthy exactly when one operand is |
| Common.OrNull | supabase/functions/pesapal-ipn-handler/index.ts:147 | `x || null` is present exactly when `x` is a non-empty string, and is then `x` |
| Common.MaybeSingle | supabase/functions/pesapal-ipn-handler/index.ts:49-53 | a single-row query gives no row for no match, the matching key for exactly one match, and an error without data for several |
| Text.Lower | supabase/functions/pesapal-ipn-handler/index.ts:117 | lower-casing keeps the length, turns every upper-case letter into its own lower-case letter and changes no other character |
| Text.LowerIdempotent | supabase/functions/pesapal-ipn-handler/index.ts:117 | lower-casing an already lower-cased description changes nothing |
| Text.Upper | supabase/functions/create-order/index.ts:76 | upper-casing keeps the length, turns every lower-case letter into its own upper-case letter and changes no other character |
| Text.UpperOfBase36 | supabase/functions/create-order/index.ts:76 | upper-casing base-36 lower-case digits yields base-36 upper-case digits |
| Text.Decimal | supabase/functions/create-order/index.ts:76 | the rendering of the timestamp is a non-empty string of digits with no leading zero |
| Text.DecimalRoundTrip | supabase/functions/create-order/index.ts:76 | the timestamp's decimal rendering reads back as the same number |
| Text.DecimalInjective | supabase/functions/create-order/index.ts:76 | different timestamps render differently |
| Text.IntString | api/checkout.ts:47 | an interpolated amount starts with `-` exactly when it is negative |
| Text.IntRoundTrip | api/checkout.ts:47 | an interpolated amount reads back as the same integer |
| Pesapal.FaultMessage | supabase/functions/create-order/index.ts:161 | `error?.message || fallback` is the gateway's message when it has a non-empty one and the fallback otherwise |
| Pesapal.AmountOr | supabase/functions/pesapal-ipn-handler/index.ts:149 | `amount || fallback` takes the reply's amount unless it is absent or zero |
| Schema.ParseStatus | src/integrations/supabase/types.ts:449-455 | a status name parses exactly when it is one of the four enum names, and back to the status it names |
| Schema.ParseRole | src/integrations/supabase/types.ts:449-455 | a role name parses exactly when it is `admin` or `user` |
| Schema.OrderStatusEnumeration | src/integrations/supabase/types.ts:322-325 | the status constants list every status once, in the declared order, under its own name |
| Schema.AppRoleEnumeration | src/integrations/supabase/types.ts:322-325 | the role constants list every role once, in the declared order, under its own name |
| Schema.RowOf | src/integrations/supabase/types.ts:71-87 | an inserted row keeps every supplied column, the nullable ones as given, and takes the database default for an omitted currency or status |
| Schema.EveryRowIsInsertable | src/integrations/supabase/types.ts:54-87 | every order row can be produced by some insert |
| Schema.InsertOrder | src/integrations/supabase/types.ts:105-113 | an order insert succeeds exactly when its id is new and its album exists, and then adds only that row |
| Schema.UpdateOrder | src/integrations/supabase/types.ts:88-104 | an update by id patches only that order's status and tracking id and leaves every other row alone |
| Schema.InsertPayment | src/integrations/supabase/types.ts:149-157 | a payment insert succeeds exactly when its order exists, and appends the row |
| Schema.InsertAccessLog | src/integrations/supabase/types.ts:295-303 | an access-log insert succeeds exactly when its album exists, and appends the row |
| Schema.FindByRef | supabase/functions/verify-transaction/index.ts:43-47 | the lookup by merchant reference finds no row exactly when no order carries the reference, the one order exactly when one does, and an error exactly when several do |
| Schema.FindPurchase | src/pages/AlbumDetail.tsx:70-76 | the purchase lookup finds an order only if it is a completed order of that e-mail for that album, finds one exactly when there is exactly one such order, and no row exactly when there is none |
| Schema.PaymentCountZero | supabase/functions/verify-transaction/index.ts:111-115 | an order none of whose payments name it has a payment count of zero |
| Schema.InsertOrderKeepsConsistent | src/integrations/supabase/types.ts:105-113 | inserting an order keeps every foreign key intact |
| Schema.UpdateOrderKeepsConsistent | src/integrations/supabase/types.ts:105-113 | updating an order keeps every foreign key intact |
| Schema.InsertPaymentKeepsConsistent | src/integrations/supabase/types.ts:149-157 | inserting a payment keeps every foreign key intact |
| CreateOrder.Suffix | supabase/functions/create-order/index.ts:76 | the random part of a reference has at most seven characters, all upper-case base-36 |
| CreateOrder.ReferenceRoundTrip | supabase/functions/create-order/index.ts:76 | `ORD-<timestamp>-<suffix>` splits back into the timestamp and the suffix |
| CreateOrder.ReferenceInjective | supabase/functions/create-order/index.ts:76 | two references are equal only when their timestamps and suffixes are |
| CreateOrder.MerchantReference | supabase/functions/create-order/index.ts:76 | a generated reference starts with `ORD-` and encodes the call's timestamp and random suffix |
| CreateOrder.Handle | supabase/functions/create-order/index.ts:45-182 | validation, album and config failures write nothing and contact nobody; a refused insert writes nothing and contacts nobody; an accepted insert adds one order carrying the album's price and currency, the registered notification id, the generated reference, and the caller's user id, names and callback URL (empty ones as null), and asks for a token; with a token the order is submitted; no token leaves the order pending; a rejected submission reports the gateway's message, or "Failed to submit order to Pesapal", and marks the order failed without a tracking id; a reply without error and with a redirect URL gives success, keeping the order pending with the reported tracking id |
| CreateOrder.SubmittedPayload | supabase/functions/create-order/index.ts:125-137 | the submitted order names the merchant reference, the album's price and currency, the description `Purchase: <title>`, the callback URL and notification id, and defaults the billing names to `Customer` and empty |
| CreateOrder.ErrorsAreNonEmpty | supabase/functions/create-order/index.ts:154-162 | every error the handler returns has a non-empty message |
| CreateOrder.HandleKeepsConsistent | supabase/functions/create-order/index.ts:79-100 | order creation keeps every foreign key intact |
| IpnHandler.MapStatus | supabase/functions/pesapal-ipn-handler/index.ts:116-123 | the order becomes completed exactly when the gateway reports completion, failed exactly when it reports failure without completion, and never cancelled |
| IpnHandler.UnrecognisedIsPending | supabase/functions/pesapal-ipn-handler/index.ts:116-123 | a reply that reports neither completion nor failure leaves the order pending |
| IpnHandler.MapStatusIgnoresCase | supabase/functions/pesapal-ipn-handler/index.ts:117 | the description is compared without regard to letter case |
| IpnHandler.CapitalisedDescriptions | supabase/functions/pesapal-ipn-handler/index.ts:117-122 | the gateway's descriptions `Completed`/`COMPLETED` complete the order and `Failed`/`FAILED` fail it |
| IpnHandler.PaymentFor | supabase/functions/pesapal-ipn-handler/index.ts:141-152 | the recorded payment names the order, is completed and keeps the raw reply; its transaction id is the confirmation code when there is one and the tracking id otherwise; amount and currency are the reply's unless absent (or a zero amount), else the order's; the payment method is the reply's or null |
| IpnHandler.Handle | supabase/functions/pesapal-ipn-handler/index.ts:35-176 | callbacks without both ids, with an unknown or ambiguous reference, or for a completed order are acknowledged with no request and no write; an actionable callback without a token gets the error, and nothing is written; otherwise the order takes the mapped status and the callback's tracking id, and a payment is added exactly when the status is completed |
| IpnHandler.OnlyActionableCallbacksAct | supabase/functions/pesapal-ipn-handler/index.ts:35-80 | the gateway is contacted exactly for callbacks with both ids whose reference names one order that is not completed, and only those callbacks, given a token, change the store |
| IpnHandler.HandleKeepsConsistent | supabase/functions/pesapal-ipn-handler/index.ts:127-159 | the notification handler keeps every foreign key intact |
| VerifyTransaction.FoundOrder | supabase/functions/verify-transaction/index.ts:40-50 | an order is found exactly when a supplied reference names exactly one order, and it is that order |
| VerifyTransaction.ResolvedTrackingId | supabase/functions/verify-transaction/index.ts:49 | a supplied tracking id is used as is; otherwise the found order's tracking id, and none when no order is found |
| VerifyTransaction.VerifiedStatus | supabase/functions/verify-transaction/index.ts:89-97 | the verifier reports one of `pending`, `completed`, `failed` |
| VerifyTransaction.Handle | supabase/functions/verify-transaction/index.ts:23-142 | without any id, or with an unresolvable tracking id, nothing is requested or written; once the tracking id resolves, the call succeeds exactly when the gateway issues a token; only the found order changes, and in it only the status (overwritten with the mapped one whatever it was) and the tracking id; a payment is added exactly when the status is completed and the order does not have exactly one; the response reports the status, tracking id and reference, and passes on the gateway's payment method, confirmation code and whole status reply |
| VerifyTransaction.HandleKeepsConsistent | supabase/functions/verify-transaction/index.ts:99-131 | the verifier keeps every foreign key intact |
| VerifyTransaction.SuppliedTrackingId | supabase/functions/verify-transaction/index.ts:25-32 | the tracking id is the query's, and for a POST the body's when the query's is missing or empty |
| VerifyTransaction.SuppliedReference | supabase/functions/verify-transaction/index.ts:25-32 | the merchant reference is the query's, and for a POST the body's when the query's is missing or empty |
| VerifyTransaction.PaymentFor | supabase/functions/verify-transaction/index.ts:118-128 | the payment row follows the same rules as the notification handler's: confirmation code else tracking id, reply's amount and currency else the order's, payment method or null |
| RegisterIpn.Handle | supabase/functions/register-ipn/index.ts:23-106 | a stored notification id is returned with no request and no write; only the notification-id entry can change; a refused registration reports the gateway's message, or "Failed to register IPN URL", after the token and registration requests, and writes nothing; any error writes nothing; a good registration reply is stored and returned unless the upsert fails, which is an error; on success the returned id is the stored one and is the id the gateway issued for the handler's URL |
| RegisterIpn.RegistrationIdempotent | supabase/functions/register-ipn/index.ts:30-36 | after one successful registration every later call returns the same id without contacting the gateway or writing |
| RegisterIpn.HandleKeepsConsistent | supabase/functions/register-ipn/index.ts:86-96 | registration keeps every foreign key intact |
| Reconciliation.StatusMappingsAgree | supabase/functions/verify-transaction/index.ts:89-97 | the verifier and the notification handler map every gateway reply to the same status |
| Reconciliation.PaymentRowsAgree | supabase/functions/verify-transaction/index.ts:118-128 | the verifier and the notification handler record the same payment row |
| Reconciliation.UpdateKeepsReferences | supabase/functions/pesapal-ipn-handler/index.ts:128-134 | updating an order never changes which order a merchant reference names |
| Reconciliation.ReferenceResolvesToNewOrder | supabase/functions/create-order/index.ts:76-95 | after a successful creation with a fresh reference, that reference names exactly the new order |
| Reconciliation.DuplicateCallbackRecordsOnePayment | supabase/functions/pesapal-ipn-handler/index.ts:68-80 | a repeated completed callback completes the order and records one payment the first time, and is acknowledged with no request and no write the second time |
| Reconciliation.VerifyKeepsAtMostOnePayment | supabase/functions/verify-transaction/index.ts:110-129 | the verifier never gives an order with at most one payment a second one |
| Reconciliation.VerifyKeepsPaidWhenCompleted | supabase/functions/verify-transaction/index.ts:100-130 | after verification every completed order still has a payment |
| Reconciliation.IpnKeepsPaymentInvariants | supabase/functions/pesapal-ipn-handler/index.ts:68-159 | the notification handler keeps every order at most once paid, paid when completed, and paid only when completed |
| Reconciliation.CreateKeepsPaymentInvariants | supabase/functions/create-order/index.ts:79-100 | order creation keeps the three payment invariants |
| Reconciliation.NoHandlerCancels | src/integrations/supabase/types.ts:324 | no handler moves an order to `cancelled`; registration touches no order |
| Reconciliation.VerifyPaysUnpaidOrder | supabase/functions/verify-transaction/index.ts:100-130 | a verification reporting completion completes an unpaid order and gives it exactly one payment |
| Reconciliation.VerifyFailsOrder | supabase/functions/verify-transaction/index.ts:100-107 | a verification reporting failure moves the order to failed, even a completed one, and records nothing |
| Reconciliation.VerifyThenCallbackCanPayTwice | supabase/functions/verify-transaction/index.ts:100-130 | completed, then failed verifications followed by a completed callback leave one order with two payments |
| Reconciliation.TrackingIdAloneWritesNothing | supabase/functions/verify-transaction/index.ts:41-50 | a verification given only a tracking id writes nothing |
| Reconciliation.HandlersKeepConsistent | src/integrations/supabase/types.ts:105-113 | every handler keeps every foreign key intact |
| PaymentCallback.StoredRefRequest | src/pages/PaymentCallback.tsx:29-31 | the fallback request supplies only the remembered merchant reference |
| PaymentCallback.ParamsRequest | src/pages/PaymentCallback.tsx:59-64 | the main request supplies exactly the URL's tracking id and merchant reference, both read from the body |
| PaymentCallback.Interpret | src/pages/PaymentCallback.tsx:33-49 | success exactly for `completed`, failure exactly for `failed`, pending otherwise; a final answer forgets the remembered reference, anything else keeps it |
| PaymentCallback.VerifyPayment | src/pages/PaymentCallback.tsx:20-82 | with no URL ids and no remembered reference the page fails with nothing sent; without URL ids the remembered reference alone is verified; the outcome and the remembered reference follow the answer as above |
| PaymentCallback.PageFollowsVerifier | src/pages/PaymentCallback.tsx:57-82 | end to end, the page succeeds exactly when the verifier reports completion and fails exactly when it reports failure; an error reply leaves it pending with the reference kept |
| PaymentCallback.StoredRefFindsOrder | src/pages/PaymentCallback.tsx:25-31 | a remembered reference naming one order makes the verifier find that order and use its tracking id |
| MediaOrders.PendingOrder | api/checkout.ts:33-38 | a new media order is pending and has no gateway id |
| MediaOrders.InsertOrder | api/checkout.ts:30-41 | a media order insert succeeds exactly when its id is new, and adds only that row |
| MediaOrders.ErrorText | api/checkout.ts:51 | the error text is the error's message for an `Error` instance and `Unknown error` for anything else |
| MediaOrders.Position | api/webhook.ts:74 | the first occurrence of an item is where it first appears, and past the end exactly when it is absent |
| MediaOrders.Dedup | api/webhook.ts:74 | deduplication yields each item of the list exactly once |
| MediaOrders.DedupKeepsFirstOccurrenceOrder | api/webhook.ts:74 | deduplicated items appear in the order of their first occurrences |
| MediaOrders.DedupOfDistinct | api/webhook.ts:74 | a list without duplicates is left as it is |
| MediaOrders.DedupAppendKnown | api/webhook.ts:74 | appending items already present changes nothing |
| MediaOrders.Merge | api/webhook.ts:72-75 | the merge holds exactly the held and the bought items, each once, and a duplicate-free held list stays as it was at the front |
| MediaOrders.DedupExtends | api/webhook.ts:74 | deduplicating a longer list only appends to the deduplication of its prefix |
| MediaOrders.MergeIdempotent | api/webhook.ts:74 | merging the same purchase twice gives what merging it once gave |
| MediaOrders.MergeItems | api/webhook.ts:74 | the one-pass set construction computes the merge and yields no duplicates |
| Webhook.Onboard | api/webhook.ts:44-80 | several profiles for the e-mail fail; no profile creates one for the new user holding exactly the order's items, unless the auth service refuses or the id is taken; an existing profile gets the merge of its items and the order's |
| Webhook.Handle | api/webhook.ts:27-110 | a status other than `COMPLETED` is ignored with nothing read or written; an unknown order fails; the order is marked `success` with the tracking id exactly when onboarding and link generation succeed, and is unchanged otherwise; profile changes made before a failed link stay; no profile is removed; a paid order's buyer holds its items |
| Webhook.OnboardOwns | api/webhook.ts:55-80 | after onboarding, a profile under the buyer's e-mail holds every item of the order |
| Webhook.OnboardKeepsPurchases | api/webhook.ts:72-80 | an existing buyer keeps every item bought before |
| Webhook.RedeliveryChangesNothing | api/webhook.ts:30-101 | a redelivered notification for a paid order without duplicate items succeeds again and changes nothing |
| CheckoutApi.RedirectUrl | api/checkout.ts:47 | the payment-page URL starts with the mock payment page followed by the order id |
| CheckoutApi.RedirectUrlRoundTrip | api/checkout.ts:47 | the payment-page URL reads back as the order id and amount it was built from |
| CheckoutApi.Handle | api/checkout.ts:25-53 | success inserts exactly one pending order with the request's e-mail, items and amount, and answers only with that order's payment-page URL; a refused insert writes nothing and answers with the database's message when the client's error is an `Error`, `Unknown error` otherwise |
| CheckoutPage.Total | src/pages/Checkout.tsx:27 | the total of a cart of non-negative prices is non-negative |
| CheckoutPage.TotalAppend | src/pages/Checkout.tsx:27 | the total of two carts together is the sum of their totals |
| CheckoutPage.SumPrices | src/pages/Checkout.tsx:27 | the running sum over the cart equals its total |
| CheckoutPage.ItemIds | src/pages/Checkout.tsx:43 | the order's item ids are the cart's ids in cart order |
| CheckoutPage.PayDisabled | src/pages/Checkout.tsx:112 | Pay is enabled only with items in the cart, an e-mail address and no checkout under way |
| CheckoutPage.HandleCheckout | src/pages/Checkout.tsx:29-67 | an empty e-mail changes nothing; success inserts one pending order with the cart's total and ids, removes the saved cart and goes to `/success?order_id=<id>`; success shows "Redirecting to Pesapal..."; a failure keeps the store and the page as they were apart from resetting processing, and shows `Unknown error` unless the client's error is an `Error` |
| CheckoutPage.EnabledPayPlacesOneOrder | src/pages/Checkout.tsx:112 | an enabled Pay button either places an order with at least one item and stays disabled after it, or shows the refusal (the database's message for an `Error` instance, `Unknown error` otherwise) and is enabled again |
| AlbumDetail.IsLocked | src/pages/AlbumDetail.tsx:244 | buying the album unlocks every track; previews are never locked; other tracks are |
| AlbumDetail.HasPurchased | src/pages/AlbumDetail.tsx:69-78 | the album counts as bought exactly when a signed-in visitor has exactly one completed order for it |
| AlbumDetail.Load | src/pages/AlbumDetail.tsx:40-88 | one run of the effect: without a route id the page goes to `/album` and queries nothing; an unknown album goes to `/album` and keeps what was shown; a known one is shown; the purchase is looked up for a signed-in visitor, and a signed-out one keeps the previous answer |
| AlbumDetail.FirstLoad | src/pages/AlbumDetail.tsx:33-88 | on the first run a signed-out visitor has bought nothing, and the album counts as bought only for a buyer of the album shown |
| AlbumDetail.SignOutKeepsPurchase | src/pages/AlbumDetail.tsx:69-88 | signing out re-runs the effect without a purchase lookup, so a bought album stays unlocked |
| AlbumDetail.BuyNow | src/pages/AlbumDetail.tsx:90-104 | nothing happens before the album is loaded; a signed-out visitor goes to `/auth`; a signed-in one to the checkout of the album shown |
| AlbumDetail.BuyNowChecksOutLoadedAlbum | src/pages/AlbumDetail.tsx:90-104 | a signed-in visitor on a page showing the route's album is sent to its checkout |
| AlbumDetail.PlayTrack | src/pages/AlbumDetail.tsx:106-125 | a locked track leaves playback as it is; the playing track stops; any other unlocked track starts |
| AlbumDetail.ClickTrack | src/pages/AlbumDetail.tsx:244-255 | clicks on locked track rows leave playback as it is; clicks on other rows act as the play button |
| AlbumDetail.PlayKeepsLockedSilent | src/pages/AlbumDetail.tsx:244 | playing tracks never starts a locked one |
| AlbumDetail.PlayTwiceRestores | src/pages/AlbumDetail.tsx:116-119 | pressing play twice on an unlocked track returns playback to where it was |
| PremiumContent.CheckPremiumAccess | src/pages/PremiumContent.tsx:121-176 | a signed-out visitor is sent to `/login`; access is granted exactly with a single completed premium order and no query fault; an admission writes at most the visitor's log row; a refusal writes nothing and goes to `/album`, showing no toast after a thrown query, the purchase explanation when there is no completed order, and "Unable to verify your access" for a query error, including several completed orders; an admission shows no toast; loading ends on every path |
| PremiumContent.AdmissionIsLogged | src/pages/PremiumContent.tsx:159-167 | in a store whose foreign keys hold, every admission appends exactly one log row and keeps the keys intact |
| PremiumContent.AccessAgreesWithAlbumPage | src/pages/PremiumContent.tsx:133-140 | the premium page admits exactly the visitors the album page counts as having bought the premium album |
| PremiumContent.NoCompletedOrderNoAccess | src/pages/PremiumContent.tsx:151-158 | a visitor without a completed premium order is refused with the purchase explanation |
| PremiumContent.WithIds | src/pages/PremiumContent.tsx:25 | the filter keeps exactly the videos with a non-empty id, and keeps a single video exactly when it has one |
| PremiumContent.WithIdsAppend | src/pages/PremiumContent.tsx:25 | filtering a list is filtering its parts in order, so the filter keeps order and multiplicity |
| PremiumContent.VideoOf | src/pages/PremiumContent.tsx:13-24 | a video has an id exactly when one is configured, and takes the configured title or the default one |
| PremiumContent.DefaultTitles | src/pages/PremiumContent.tsx:15-23 | the default titles are `Premium Show #1`, `#2` and `#3` |
| PremiumContent.PremiumVideos | src/pages/PremiumContent.tsx:12-25 | the three configured videos that have an id, in configured order, each once, with the configured or default title |

## Left out

- HTTP handling: CORS preflight, JSON parsing of bodies, response headers and the `status: '200'` string in acknowledgements are not modelled; responses are datatypes with an HTTP code.
- Environment variables (API URL, keys, `PUBLIC_URL`) are not read; where a URL is built from one it is a parameter.
- `supabase/functions/pesapal-auth/index.ts` and the `getClaims` call in create-order: the caller's user id is an input.
- Concurrency: handlers run one at a time; interleavings of the notification handler and the verifier are not modelled.
- Floating point: prices and amounts are integers; `parseFloat(album.price)` and JavaScript number prices in the cart are taken as exact.
- Letter case: only ASCII letters are case-mapped; that is exact for the comparisons against `completed` and `failed`.
- Write failures whose errors the code only logs (order updates, payment inserts, the webhook's profile update, the access-log insert) are modelled as succeeding unless a key constraint refuses them.
- Row timestamps, generated payment and log ids, and the `songs` query and its ordering are not modelled.
- The auth service's `createUser` and `generateLink` are oracles; the link is never stored, and no e-mail is sent.
- A signed-in user without an e-mail address is not modelled on the album and premium pages.
- PremiumContent's DOM listeners, watermark and video player, and the rest of the UI, are not modelled.
- The `toast` texts of the album and premium pages are modelled where they accompany a decision; icons and titles of the payment page are not.
- CheckoutPage.HandleCheckout: the 1.5-second delay before the saved cart is removed and the page moves on is not modelled; the two happen with the successful insert.
- CheckoutApi.Handle: an insert refused by the database for reasons other than a key clash is an input fault carrying its message.
- RegisterIpn.Handle and the `pesapal_config` table: the table is modelled as one value per key, so the `notification_id` lookups never see two rows. The upsert, which names no conflict column, is modelled as overwriting the entry. In the database it conflicts only on the generated `id`, so after a `notification_id` row with an empty value it would add a second row, and every later lookup would then fail. That case is not represented.
- Whether the database client hands over its errors as `Error` instances depends on the client library's version, which is not part of this model; it is an input of the checkout API and page.

=== FILE: album_detail.dfy ===
/** The album page: whether the visitor bought the album, which tracks are
    locked, the play/pause toggle, and where "Buy now" leads. */
module AlbumDetail {
  import opened Common
  import opened Schema

  /** A row of `songs` as the page uses it. */
  datatype Song = Song(id: string, title: string, trackNumber: int, isPreview: bool)

  datatype Toast = Toast(title: string, description: string)

  /** What loading the page did: where it navigated, the album it shows,
      whether it counts as purchased, whether it is still loading, and
      whether it queried the store at all. */
  datatype Loaded = Loaded(
    location: Option<string>,
    album: Option<string>,
    hasPurchased: bool,
    loading: bool,
    queried: bool)

  const AlbumsPage := "/album"
  const AuthPage := "/auth"
  const CheckoutPage := "/checkout?album="
  const PurchaseRequired := Toast("Purchase Required", "Buy the album to unlock all tracks.")
  const LoginRequired := Toast("Login Required", "Please log in to purchase this album.")

  /** Whether a track is locked. */
  function IsLocked(hasPurchased: bool, song: Song): (locked: bool)
    // Buying the album unlocks every track; previews are never locked.
    ensures hasPurchased || song.isPreview ==> !locked
    ensures !hasPurchased && !song.isPreview ==> locked
  {
    !hasPurchased && !song.isPreview
  }

  /** Whether the signed-in visitor (their e-mail, `None` when signed out)
      bought `albumId`: exactly one completed order of theirs for it. Two or
      more make the single-row query fail, which reads as not bought. */
  function HasPurchased(s: Store, user: Option<string>, albumId: string): (b: bool)
    ensures b <==> user.Some? && |CompletedOrdersFor(s.orders, user.value, albumId)| == 1
    ensures b ==> exists id :: id in s.orders && s.orders[id].customerEmail == user.value
                               && s.orders[id].albumId == albumId && s.orders[id].status == Completed
  {
    user.Some? && FindPurchase(s, user.value, albumId).One?
  }

  /** The page before its effect first runs: nothing shown, nothing
      bought, loading. */
  const Initial := Loaded(None, None, false, true, false)

  /** One run of the page's effect for route parameter `routeId`, from the
      state `prev` the page is in. The effect runs on mount and again
      whenever the route id or the user changes; state it does not set is
      kept from the run before. */
  function Load(prev: Loaded, s: Store, routeId: Option<string>, user: Option<string>): (r: Loaded)
    // Without an id the page leaves for the album list and queries nothing.
    ensures !Present(routeId) ==> r == prev.(location := Some(AlbumsPage), queried := false)
    ensures Present(routeId) ==> r.queried && !r.loading
    // An unknown album leaves for the list, keeping what was shown before.
    ensures Present(routeId) && routeId.value !in s.albums ==>
              r == prev.(location := Some(AlbumsPage), loading := false, queried := true)
    // A known album is shown; the purchase is looked up for a signed-in
    // visitor only, and a signed-out one keeps the previous answer.
    ensures Present(routeId) && routeId.value in s.albums ==> r.location.None? && r.album == routeId
    ensures Present(routeId) && routeId.value in s.albums && user.Some? ==>
              r.hasPurchased == HasPurchased(s, user, routeId.value)
    ensures user.None? ==> r.hasPurchased == prev.hasPurchased
  {
    if !Present(routeId) then prev.(location := Some(AlbumsPage), queried := false)
    else if routeId.value !in s.albums then prev.(location := Some(AlbumsPage), loading := false, queried := true)
    else
      var bought := if user.Some? then HasPurchased(s, user, routeId.value) else prev.hasPurchased;
      Loaded(None, routeId, bought, false, true)
  }

  /** On the first run, a signed-out visitor has bought nothing, and the
      album counts as bought only for a buyer of the album shown. */
  lemma FirstLoad(s: Store, routeId: Option<string>, user: Option<string>)
    ensures !Present(routeId) ==> Load(Initial, s, routeId, user) == Loaded(Some(AlbumsPage), None, false, true, false)
    ensures user.None? ==> !Load(Initial, s, routeId, user).hasPurchased
    ensures var r := Load(Initial, s, routeId, user);
            r.hasPurchased ==> r.album.Some? && HasPurchased(s, user, r.album.value)
  {
  }

  /** Signing out while on the page re-runs the effect without a purchase
      lookup: a bought album stays unlocked. */
  lemma SignOutKeepsPurchase(prev: Loaded, s: Store, routeId: Option<string>)
    requires prev.hasPurchased
    ensures Load(prev, s, routeId, None).hasPurchased
  {
  }

  /** The album id a checkout link carries. */
  function CheckoutAlbum(location: string): Option<string> {
    if |location| >= |CheckoutPage| && location[..|CheckoutPage|] == CheckoutPage
    then Some(location[|CheckoutPage|..]) else None
  }

  /** "Buy now": nothing before the album is loaded, the sign-in page when
      signed out, otherwise the checkout of the album shown. */
  function BuyNow(album: Option<string>, user: Option<string>): (r: Option<(string, Option<Toast>)>)
    ensures r.None? <==> album.None?
    ensures r.Some? && user.None? ==> r.value == (AuthPage, Some(LoginRequired))
    ensures r.Some? && user.Some? ==> r.value.1.None? && CheckoutAlbum(r.value.0) == album
  {
    if album.None? then None
    else if user.None? then Some((AuthPage, Some(LoginRequired)))
    else
      assert (CheckoutPage + album.value)[..|CheckoutPage|] == CheckoutPage;
      assert (CheckoutPage + album.value)[|CheckoutPage|..] == album.value;
      Some((CheckoutPage + album.value, None))
  }

  /** A signed-in visitor on a loaded album page is sent to the checkout of
      exactly that album. */
  lemma BuyNowChecksOutLoadedAlbum(prev: Loaded, s: Store, routeId: Option<string>, user: Option<string>)
    requires user.Some?
    requires Load(prev, s, routeId, user).location.None?
    ensures var r := BuyNow(Load(prev, s, routeId, user).album, user);
            r.Some? && CheckoutAlbum(r.value.0) == routeId
  {
  }

  /** Pressing play on `song`: a locked track only explains why; the playing
      track pauses; any other track starts. */
  function PlayTrack(hasPurchased: bool, current: Option<string>, song: Song): (r: (Option<string>, Option<Toast>))
    ensures IsLocked(hasPurchased, song) ==> r == (current, Some(PurchaseRequired))
    ensures !IsLocked(hasPurchased, song) ==> r.0 == (if current == Some(song.id) then None else Some(song.id))
    ensures !IsLocked(hasPurchased, song) && current != Some(song.id) ==>
              r.1 == Some(Toast("Now Playing", song.title + (if hasPurchased then "" else " (Preview)")))
  {
    if IsLocked(hasPurchased, song) then (current, Some(PurchaseRequired))
    else if current == Some(song.id) then (None, None)
    else (Some(song.id), Some(Toast("Now Playing", song.title + (if hasPurchased then "" else " (Preview)"))))
  }

  /** A click on a track row: rows of locked tracks ignore clicks. */
  function ClickTrack(hasPurchased: bool, current: Option<string>, song: Song): (r: Option<string>)
    ensures IsLocked(hasPurchased, song) ==> r == current
    ensures !IsLocked(hasPurchased, song) ==> r == PlayTrack(hasPurchased, current, song).0
  {
    if IsLocked(hasPurchased, song) then current else PlayTrack(hasPurchased, current, song).0
  }

  /** Nothing, or a track of `songs` that is not locked, is playing. */
  predicate PlayingIsUnlocked(hasPurchased: bool, songs: seq<Song>, current: Option<string>) {
    current.None? || exists i :: 0 <= i < |songs| && songs[i].id == current.value && !IsLocked(hasPurchased, songs[i])
  }

  /** Playing tracks of the album never starts a locked one. */
  lemma PlayKeepsLockedSilent(hasPurchased: bool, songs: seq<Song>, current: Option<string>, i: nat)
    requires i < |songs|
    requires PlayingIsUnlocked(hasPurchased, songs, current)
    ensures PlayingIsUnlocked(hasPurchased, songs, PlayTrack(hasPurchased, current, songs[i]).0)
    ensures PlayingIsUnlocked(hasPurchased, songs, ClickTrack(hasPurchased, current, songs[i]))
  {
  }

  /** Pressing play twice on an unlocked track that is playing, or when
      nothing plays, returns to where it started. */
  lemma PlayTwiceRestores(hasPurchased: bool, current: Option<string>, song: Song)
    requires !IsLocked(hasPurchased, song)
    requires current.None? || current == Some(song.id)
    ensures PlayTrack(hasPurchased, PlayTrack(hasPurchased, current, song).0, song).0 == current
  {
  }
}

=== FILE: checkout_api.dfy ===
/** `handleCheckout` of the media-order flow: records a pending order and
    answers with the (mock) payment page to send the buyer to. */
module CheckoutApi {
  import opened Common
  import opened Text
  import opened MediaOrders

  /** The request body. */
  datatype Request = Request(email: string, mediaIds: seq<string>, amount: int)

  /** The id the database assigns to the new row, the message of an insert
      the database refuses for reasons of its own (`Some` = refused), and
      whether the client hands errors over as `Error` instances. */
  datatype Environment = Environment(newOrderId: string, insertError: Option<string>, errorInstances: bool)

  datatype Response = Redirect(redirectUrl: string) | Failure(error: string) {
    function Code(): int {
      if Redirect? then 200 else 500
    }
  }

  datatype Outcome = Outcome(store: MediaStore, response: Response)

  const PayPage := "https://mock-pesapal.com/pay?orderId="
  const AmountParam := "&amount="

  /** The mock payment page for order `id` and `amount`. */
  function RedirectUrl(id: string, amount: int): (url: string)
    ensures |PayPage| + |id| <= |url|
    ensures url[..|PayPage|] == PayPage && url[|PayPage|..|PayPage| + |id|] == id
  {
    PayPage + id + AmountParam + IntString(amount)
  }

  /** Reads the order id and amount back out of a payment-page URL. */
  function ParseRedirectUrl(url: string): Option<(string, int)> {
    if |url| < |PayPage| || url[..|PayPage|] != PayPage then None
    else
      var rest := url[|PayPage|..];
      var k := FirstIndexOf(rest, '&');
      if |rest| - k < |AmountParam| || rest[k..k + |AmountParam|] != AmountParam then None
      else
        match ParseInt(rest[k + |AmountParam|..])
        case None => None
        case Some(n) => Some((rest[..k], n))
  }

  /** The URL names the order and the amount: both read back unchanged
      (order ids are UUIDs, which contain no `&`). */
  lemma RedirectUrlRoundTrip(id: string, amount: int)
    requires '&' !in id
    ensures ParseRedirectUrl(RedirectUrl(id, amount)) == Some((id, amount))
  {
    var url := RedirectUrl(id, amount);
    assert url[..|PayPage|] == PayPage;
    var rest := url[|PayPage|..];
    assert rest == id + AmountParam + IntString(amount);
    var k := FirstIndexOf(rest, '&');
    assert rest[|id|] == '&';
    assert k == |id|;
    assert rest[k..k + |AmountParam|] == AmountParam;
    assert rest[k + |AmountParam|..] == IntString(amount);
    assert rest[..k] == id;
    IntRoundTrip(amount);
  }

  /** The handler. */
  function Handle(s: MediaStore, req: Request, env: Environment): (r: Outcome)
    // Success inserts exactly one pending order carrying the request's
    // e-mail, items and amount, and answers with its payment page only.
    ensures r.response.Redirect? <==> env.insertError.None? && env.newOrderId !in s.orders
    ensures r.response.Redirect? ==>
              && r.store.orders == s.orders[env.newOrderId := PendingOrder(req.email, req.mediaIds, req.amount)]
              && r.store.profiles == s.profiles
              && r.response.redirectUrl == RedirectUrl(env.newOrderId, req.amount)
    // A refused insert writes nothing and answers with the database's
    // message when the client's error is an `Error`, else "Unknown error".
    ensures r.response.Failure? ==> r.store == s
    ensures r.response.Failure? && !env.errorInstances ==> r.response.error == UnknownError
    ensures r.response.Failure? && env.errorInstances ==>
              r.response.error == (if env.insertError.Some? then env.insertError.value else DuplicateKey)
  {
    if env.insertError.Some? then Outcome(s, Failure(ErrorText(ClientError(env.insertError.value, env.errorInstances))))
    else
      match InsertOrder(s, env.newOrderId, PendingOrder(req.email, req.mediaIds, req.amount))
      case None => Outcome(s, Failure(ErrorText(ClientError(DuplicateKey, env.errorInstances))))
      case Some(s1) => Outcome(s1, Redirect(RedirectUrl(env.newOrderId, req.amount)))
  }
}

=== FILE: checkout_page.dfy ===
/** The checkout page of the media-order flow: the cart's total, the Pay
    button's enabled state, and `handleCheckout`, which records a pending
    order for the cart and, only once that succeeded, forgets the saved cart
    and moves on to the success page. */
module CheckoutPage {
  import opened Common
  import opened MediaOrders

  /** An item of the cart kept in local storage. */
  datatype CartItem = CartItem(id: string, title: string, price: int)

  /** The page's state: the e-mail field, the cart, whether a checkout is in
      progress, and the saved cart in local storage (`None` once removed). */
  datatype Page = Page(email: string, cart: seq<CartItem>, processing: bool, savedCart: Option<string>)

  /** The id the database assigns to the new row, the message of an insert
      the database refuses (`Some` = refused), and whether the client hands
      errors over as `Error` instances. */
  datatype Environment = Environment(newOrderId: string, insertError: Option<string>, errorInstances: bool)

  datatype Toast = ErrorToast(text: string) | SuccessToast(text: string)

  /** The store and page afterwards, where the browser goes, what is shown. */
  datatype Outcome = Outcome(store: MediaStore, page: Page, location: Option<string>, toast: Toast)

  const EmailRequired := "Please enter your email"
  const Redirecting := "Redirecting to Pesapal..."
  const SuccessPage := "/success?order_id="

  /** The cart's total: the prices summed from the first item on, as
      `reduce` with start value 0 does. */
  function Total(cart: seq<CartItem>): (t: int)
    ensures (forall i :: 0 <= i < |cart| ==> cart[i].price >= 0) ==> t >= 0
    decreases |cart|
  {
    if |cart| == 0 then 0 else Total(cart[..|cart| - 1]) + cart[|cart| - 1].price
  }

  /** The total of two carts put together is the sum of their totals. */
  lemma {:induction false} TotalAppend(a: seq<CartItem>, b: seq<CartItem>)
    ensures Total(a + b) == Total(a) + Total(b)
    decreases |b|
  {
    if |b| == 0 {
      assert a + b == a;
    } else {
      assert (a + b)[..|a + b| - 1] == a + b[..|b| - 1];
      TotalAppend(a, b[..|b| - 1]);
    }
  }

  /** The running sum the page computes, one item at a time. */
  method SumPrices(cart: seq<CartItem>) returns (sum: int)
    ensures sum == Total(cart)
  {
    sum := 0;
    for i := 0 to |cart|
      invariant sum == Total(cart[..i])
    {
      assert cart[..i + 1][..i] == cart[..i];
      sum := sum + cart[i].price;
    }
    assert cart[..|cart|] == cart;
  }

  /** The cart's item ids in cart order (`cart.map(i => i.id)`). */
  function ItemIds(cart: seq<CartItem>): (ids: seq<string>)
    ensures |ids| == |cart|
    ensures forall i :: 0 <= i < |cart| ==> ids[i] == cart[i].id
  {
    seq(|cart|, i requires 0 <= i < |cart| => cart[i].id)
  }

  /** The Pay button is disabled while a checkout runs, for an empty cart,
      and without an e-mail address. */
  function PayDisabled(p: Page): (disabled: bool)
    // Enabled only for a page with items to order, an address for the
    // access link, and no checkout under way.
    ensures !disabled ==> |ItemIds(p.cart)| > 0 && p.email != "" && !p.processing
    ensures p.processing || |p.cart| == 0 || p.email == "" ==> disabled
  {
    p.processing || |p.cart| == 0 || p.email == ""
  }

  /** The checkout step. */
  function HandleCheckout(s: MediaStore, p: Page, env: Environment): (r: Outcome)
    // Without an e-mail address nothing is inserted and nothing changes.
    ensures p.email == "" ==> r == Outcome(s, p, None, ErrorToast(EmailRequired))
    // Success: one pending order holding the cart's total and item ids in
    // cart order; the saved cart is removed and the browser moves on.
    ensures r.location.Some? <==> p.email != "" && env.insertError.None? && env.newOrderId !in s.orders
    ensures r.location.Some? ==>
              && r.store.orders == s.orders[env.newOrderId := PendingOrder(p.email, ItemIds(p.cart), Total(p.cart))]
              && r.store.profiles == s.profiles
              && r.page == p.(processing := true, savedCart := None)
              && r.location.value == SuccessPage + env.newOrderId
    ensures r.location.Some? ==> r.toast == SuccessToast(Redirecting)
    // Failure: the store and page are as before, and Pay can be pressed again.
    ensures r.location.None? ==> r.store == s && r.page.cart == p.cart && r.page.savedCart == p.savedCart
    ensures r.location.None? && p.email != "" ==> r.page == p.(processing := false) && r.toast.ErrorToast?
    ensures r.location.None? && p.email != "" && !env.errorInstances ==> r.toast == ErrorToast(UnknownError)
  {
    if p.email == "" then Outcome(s, p, None, ErrorToast(EmailRequired))
    else if env.insertError.Some? then
      Outcome(s, p.(processing := false), None, ErrorToast(ErrorText(ClientError(env.insertError.value, env.errorInstances))))
    else
      match InsertOrder(s, env.newOrderId, PendingOrder(p.email, ItemIds(p.cart), Total(p.cart)))
      case None => Outcome(s, p.(processing := false), None, ErrorToast(ErrorText(ClientError(DuplicateKey, env.errorInstances))))
      case Some(s1) =>
        Outcome(s1, p.(processing := true, savedCart := None), Some(SuccessPage + env.newOrderId),
                SuccessToast(Redirecting))
  }

  /** Pressing an enabled Pay button never hits the e-mail guard: it either
      places an order naming at least one item, after which the button stays
      disabled (a page places at most one order), or shows the refusal (the
      database's message when the client's error is an `Error`, otherwise
      "Unknown error") and enables the button again. */
  lemma EnabledPayPlacesOneOrder(s: MediaStore, p: Page, env: Environment)
    requires !PayDisabled(p)
    ensures var r := HandleCheckout(s, p, env);
            && (r.location.None? ==>
                  r.toast == ErrorToast(if !env.errorInstances then UnknownError
                                        else if env.insertError.Some? then env.insertError.value
                                        else DuplicateKey))
            && (r.location.Some? ==> |r.store.orders[env.newOrderId].mediaIds| > 0 && PayDisabled(r.page))
            && (r.location.None? ==> !PayDisabled(r.page))
  {
  }
}

=== FILE: common.dfy ===
/** Values shared by every handler: optional values and the JavaScript
    truthiness rules the handlers use to test request fields. */
module Common {

  /** A value that may be absent: `null`/`undefined` in the handlers. */
  datatype Option<+T> = None | Some(value: T) {

    /** The wrapped value, or `default` when absent. */
    function GetOr(default: T): T {
      match this
      case Some(v) => v
      case None => default
    }
  }

  /** An optional string is truthy in JavaScript iff it is present and not
      the empty string (`!x` is true for `null`, `undefined` and `""`). */
  predicate Present(o: Option<string>) {
    o.Some? && o.value != ""
  }

  /** JavaScript `a || b` on optional strings. */
  function Or(a: Option<string>, b: Option<string>): (r: Option<string>)
    ensures Present(r) <==> Present(a) || Present(b)
    ensures Present(a) ==> r == a
    ensures !Present(a) ==> r == b
  {
    if Present(a) then a else b
  }

  /** JavaScript `x || null`: an empty string becomes null. */
  function OrNull(a: Option<string>): (r: Option<string>)
    ensures r.Some? <==> Present(a)
    ensures Present(a) ==> r == a
  {
    if Present(a) then a else None
  }

  /** Result of a query that uses Supabase's `.maybeSingle()` or `.single()`:
      no row, exactly one row, or several rows (which the client reports as
      an error and for which it returns no data). */
  datatype Lookup<+T> = NoRow | One(row: T) | Many

  /** Classifies a finite set of matching keys the way `.maybeSingle()` does. */
  function MaybeSingle(keys: set<string>): (r: Lookup<string>)
    ensures r.NoRow? <==> keys == {}
    ensures r.One? <==> |keys| == 1
    ensures r.One? ==> keys == {r.row}
    ensures r.Many? <==> |keys| > 1
  {
    if keys == {} then NoRow
    else if |keys| == 1 then
      var k :| k in keys;
      assert keys == {k} by {
        assert |keys - {k}| == 0;
      }
      One(k)
    else Many
  }
}

=== FILE: create_order.dfy ===
/** The `create-order` function: validates a purchase request, records a
    pending order for the album, submits it to the gateway, and then either
    stores the gateway's tracking id or marks the order failed. */
module CreateOrder {
  import opened Common
  import opened Text
  import opened Pesapal
  import opened Schema

  /** The JSON body of the request; any field may be missing. */
  datatype Request = Request(
    albumId: Option<string>,
    customerEmail: Option<string>,
    firstName: Option<string>,
    lastName: Option<string>,
    callbackUrl: Option<string>)

  /** What the handler takes from its surroundings: the caller's user id
      resolved from the bearer token, `Date.now()`, the base-36 fraction
      digits of `Math.random()`, the key the database assigns to the new
      row, the database's column defaults, and whether the insert fails for
      a reason other than a key or foreign-key violation. */
  datatype Environment = Environment(
    userId: Option<string>,
    now: nat,
    randomDigits: string,
    newOrderId: string,
    defaults: ColumnDefaults,
    insertFails: bool)

  /** The gateway's replies: the auth token (absent or empty when the token
      request fails) and the reply to the order submission. */
  datatype Replies = Replies(token: Option<string>, submit: SubmitReply)

  datatype Response =
    | Created(orderId: string, merchantReference: string, redirectUrl: string, trackingId: Option<string>)
    | Error(message: string)
  {
    /** HTTP status of the response. */
    function Code(): int {
      if Created? then 200 else 500
    }
  }

  /** The store after the call, the response, and the gateway requests made. */
  datatype Outcome = Outcome(store: Store, response: Response, calls: seq<GatewayCall>)

  const MissingFields := "Missing required fields: album_id, customer_email, callback_url"
  const AlbumNotFound := "Album not found"
  const IpnNotRegistered := "IPN not registered. Please register IPN first."
  const InsertFailed := "Failed to create order"
  const TokenFailed := "Failed to get Pesapal auth token"
  const SubmitFailed := "Failed to submit order to Pesapal"

  /** `Math.random().toString(36).substring(2, 9).toUpperCase()`, given the
      digits after the `0.` of the base-36 rendering. */
  function Suffix(randomDigits: string): (r: string)
    requires forall i :: 0 <= i < |randomDigits| ==> IsBase36Lower(randomDigits[i])
    ensures |r| <= 7
    ensures forall i :: 0 <= i < |r| ==> IsBase36Upper(r[i])
  {
    var taken := if |randomDigits| <= 7 then randomDigits else randomDigits[..7];
    UpperOfBase36(taken);
    Upper(taken)
  }

  /** `ORD-<timestamp>-<suffix>`. */
  function FormatReference(now: nat, suffix: string): string {
    "ORD-" + Decimal(now) + "-" + suffix
  }

  /** Splits a merchant reference back into its timestamp and suffix. */
  function ParseReference(s: string): Option<(nat, string)> {
    if |s| < 4 || s[..4] != "ORD-" then None
    else
      var rest := s[4..];
      var k := FirstIndexOf(rest, '-');
      if k == 0 || k == |rest| || !AllDigits(rest[..k]) then None
      else Some((ParseDecimal(rest[..k]), rest[k + 1..]))
  }

  /** A formatted reference parses back to the timestamp and suffix it was
      built from. */
  lemma ReferenceRoundTrip(now: nat, suffix: string)
    ensures ParseReference(FormatReference(now, suffix)) == Some((now, suffix))
  {
    var d := Decimal(now);
    var s := FormatReference(now, suffix);
    var rest := d + "-" + suffix;
    assert s[..4] == "ORD-";
    assert s[4..] == rest;
    var k := FirstIndexOf(rest, '-');
    assert rest[|d|] == '-';
    assert forall i :: 0 <= i < |d| ==> rest[i] == d[i];
    assert k == |d|;
    assert rest[..k] == d;
    assert rest[k + 1..] == suffix;
    DecimalRoundTrip(now);
  }

  /** Two references coincide only when built from the same timestamp and
      suffix. */
  lemma ReferenceInjective(n1: nat, x1: string, n2: nat, x2: string)
    requires FormatReference(n1, x1) == FormatReference(n2, x2)
    ensures n1 == n2 && x1 == x2
  {
    ReferenceRoundTrip(n1, x1);
    ReferenceRoundTrip(n2, x2);
  }

  /** The merchant reference generated for a call. */
  function MerchantReference(now: nat, randomDigits: string): (r: string)
    requires forall i :: 0 <= i < |randomDigits| ==> IsBase36Lower(randomDigits[i])
    ensures |r| > 4 && r[..4] == "ORD-"
    ensures ParseReference(r) == Some((now, Suffix(randomDigits)))
  {
    ReferenceRoundTrip(now, Suffix(randomDigits));
    FormatReference(now, Suffix(randomDigits))
  }

  /** The request submitted to the gateway for a new order. */
  function SubmitPayloadFor(ref: string, album: Album, email: string, firstName: Option<string>,
                            lastName: Option<string>, callbackUrl: string, notificationId: string): SubmitPayload
  {
    SubmitPayload(ref, album.currency, album.price, "Purchase: " + album.title, callbackUrl,
                  notificationId,
                  BillingAddress(email, if Present(firstName) then firstName.value else "Customer",
                                 if Present(lastName) then lastName.value else ""))
  }

  /** Whether the request passes the field check. */
  predicate HasRequiredFields(req: Request) {
    Present(req.albumId) && Present(req.customerEmail) && Present(req.callbackUrl)
  }

  /** The order row the handler inserts. */
  function PendingInsert(s: Store, req: Request, env: Environment): OrderInsert
    requires HasRequiredFields(req) && req.albumId.value in s.albums && HasNotificationId(s)
    requires forall i :: 0 <= i < |env.randomDigits| ==> IsBase36Lower(env.randomDigits[i])
  {
    var album := s.albums[req.albumId.value];
    OrderInsert(req.albumId.value, album.price, req.customerEmail.value,
                MerchantReference(env.now, env.randomDigits), OrNull(env.userId),
                Some(s.config[NotificationIdKey]), Some(album.currency), Some(Pending),
                OrNull(req.firstName), OrNull(req.lastName), req.callbackUrl, None)
  }

  /** The handler. Validation, the album lookup and the config lookup
      happen before anything is written; then one order is inserted; then
      the gateway is asked for a token and sent the order. */
  function Handle(s: Store, req: Request, env: Environment, replies: Replies): (r: Outcome)
    requires forall i :: 0 <= i < |env.randomDigits| ==> IsBase36Lower(env.randomDigits[i])
    // Validation and lookups: failures write nothing and contact nobody.
    ensures !HasRequiredFields(req) ==> r == Outcome(s, Error(MissingFields), [])
    ensures HasRequiredFields(req) && req.albumId.value !in s.albums
            ==> r == Outcome(s, Error(AlbumNotFound), [])
    ensures HasRequiredFields(req) && req.albumId.value in s.albums && !HasNotificationId(s)
            ==> r == Outcome(s, Error(IpnNotRegistered), [])
    // Once the lookups pass, a refused insert writes nothing and contacts
    // nobody; an accepted one records the order and asks for a token, and
    // with a token the order is submitted.
    ensures HasRequiredFields(req) && req.albumId.value in s.albums && HasNotificationId(s)
            && (env.insertFails || env.newOrderId in s.orders)
            ==> r == Outcome(s, Error(InsertFailed), [])
    ensures HasRequiredFields(req) && req.albumId.value in s.albums && HasNotificationId(s)
            && !env.insertFails && env.newOrderId !in s.orders
            ==> env.newOrderId in r.store.orders && |r.calls| == (if Present(replies.token) then 2 else 1)
    // A token and a reply without error carrying a redirect URL give success.
    ensures HasRequiredFields(req) && req.albumId.value in s.albums && HasNotificationId(s)
            && !env.insertFails && env.newOrderId !in s.orders
            && Present(replies.token) && replies.submit.error.None? && Present(replies.submit.redirectUrl)
            ==> r.response.Created?
    // At most one new order, under the assigned key; nothing else changes
    // except, possibly, that order's own status or tracking id.
    ensures r.store.orders.Keys <= s.orders.Keys + {env.newOrderId}
    ensures forall k :: k in s.orders ==> k in r.store.orders && r.store.orders[k] == s.orders[k]
    ensures r.store.albums == s.albums && r.store.payments == s.payments
    ensures r.store.config == s.config && r.store.accessLogs == s.accessLogs
    // The new order carries the album's price and currency, the registered
    // notification id, the generated merchant reference, and the caller's
    // user id, names and callback URL (empty ones as null).
    ensures env.newOrderId in r.store.orders && env.newOrderId !in s.orders ==>
              var o := r.store.orders[env.newOrderId];
              && HasRequiredFields(req) && o.albumId == req.albumId.value
              && o.albumId in s.albums
              && o.amount == s.albums[o.albumId].price
              && o.currency == s.albums[o.albumId].currency
              && HasNotificationId(s) && o.notificationId == Some(s.config[NotificationIdKey])
              && o.merchantReference == MerchantReference(env.now, env.randomDigits)
              && o.customerEmail == req.customerEmail.value
              && o.userId == OrNull(env.userId)
              && o.customerFirstName == OrNull(req.firstName) && o.customerLastName == OrNull(req.lastName)
              && o.callbackUrl == req.callbackUrl
              && (o.status == Pending || o.status == Failed)
    // The gateway is asked for a token first and sent at most one order,
    // whose id is the merchant reference.
    ensures |r.calls| <= 2 && (|r.calls| > 0 ==> r.calls[0] == RequestToken)
    // The gateway is contacted only once the order is recorded.
    ensures |r.calls| > 0 ==> env.newOrderId in r.store.orders && env.newOrderId !in s.orders
    ensures |r.calls| == 2 ==>
              r.calls[1].SubmitOrderRequest?
              && r.calls[1].payload.id == MerchantReference(env.now, env.randomDigits)
    // Without a token the new order stays pending.
    ensures r.calls == [RequestToken] ==>
              && r.response == Error(TokenFailed)
              && env.newOrderId in r.store.orders && env.newOrderId !in s.orders
              && r.store.orders[env.newOrderId].status == Pending
    // A rejected submission reports the gateway's message (or the fallback),
    // marks the order failed and stores no tracking id.
    ensures |r.calls| == 2 && (replies.submit.error.Some? || !Present(replies.submit.redirectUrl)) ==>
              && r.response == Error(FaultMessage(replies.submit.error, SubmitFailed))
              && env.newOrderId in r.store.orders && env.newOrderId !in s.orders
              && r.store.orders[env.newOrderId].status == Failed
              && r.store.orders[env.newOrderId].trackingId.None?
    // Success: the order stays pending, gains the tracking id, and the
    // response names it.
    ensures r.response.Created? ==>
              && r.response.orderId == env.newOrderId
              && env.newOrderId !in s.orders && env.newOrderId in r.store.orders
              && r.store.orders[env.newOrderId].status == Pending
              && r.store.orders[env.newOrderId].trackingId == replies.submit.trackingId
              && r.response.trackingId == replies.submit.trackingId
              && r.response.merchantReference == MerchantReference(env.now, env.randomDigits)
              && Present(replies.submit.redirectUrl)
              && r.response.redirectUrl == replies.submit.redirectUrl.value
  {
    if !HasRequiredFields(req) then Outcome(s, Error(MissingFields), [])
    else if req.albumId.value !in s.albums then Outcome(s, Error(AlbumNotFound), [])
    else if !HasNotificationId(s) then Outcome(s, Error(IpnNotRegistered), [])
    else
      var id := env.newOrderId;
      var ins := PendingInsert(s, req, env);
      var inserted := InsertOrder(s, id, ins, env.defaults);
      if env.insertFails || inserted.None? then Outcome(s, Error(InsertFailed), [])
      else
        var s1 := inserted.value;
        if !Present(replies.token) then Outcome(s1, Error(TokenFailed), [RequestToken])
        else
          var payload := SubmitPayloadFor(ins.merchantReference, s.albums[req.albumId.value],
                                          req.customerEmail.value, req.firstName, req.lastName,
                                          req.callbackUrl.value, s.config[NotificationIdKey]);
          var calls := [RequestToken, SubmitOrderRequest(payload)];
          var reply := replies.submit;
          if reply.error.Some? || !Present(reply.redirectUrl) then
            Outcome(UpdateOrder(s1, id, OrderPatch(Some(Failed), None)),
                    Error(FaultMessage(reply.error, SubmitFailed)), calls)
          else
            Outcome(UpdateOrder(s1, id, OrderPatch(None, Some(reply.trackingId))),
                    Created(id, ins.merchantReference, reply.redirectUrl.value, reply.trackingId),
                    calls)
  }

  /** The submitted order names the merchant reference and the album's
      price, currency and title, and falls back to "Customer" and "" for missing names. */
  lemma SubmittedPayload(s: Store, req: Request, env: Environment, replies: Replies)
    requires forall i :: 0 <= i < |env.randomDigits| ==> IsBase36Lower(env.randomDigits[i])
    requires |Handle(s, req, env, replies).calls| == 2
    ensures HasRequiredFields(req) && req.albumId.value in s.albums && HasNotificationId(s)
    ensures var p := Handle(s, req, env, replies).calls[1].payload;
            var album := s.albums[req.albumId.value];
            && p.id == MerchantReference(env.now, env.randomDigits)
            && p.amount == album.price && p.currency == album.currency
            && p.description == "Purchase: " + album.title
            && p.callbackUrl == req.callbackUrl.value
            && p.notificationId == s.config[NotificationIdKey]
            && p.billing.emailAddress == req.customerEmail.value
            && p.billing.firstName == (if Present(req.firstName) then req.firstName.value else "Customer")
            && p.billing.lastName == (if Present(req.lastName) then req.lastName.value else "")
  {
  }

  /** Every gateway error message surfaces as a non-empty error. */
  lemma ErrorsAreNonEmpty(s: Store, req: Request, env: Environment, replies: Replies)
    requires forall i :: 0 <= i < |env.randomDigits| ==> IsBase36Lower(env.randomDigits[i])
    ensures Handle(s, req, env, replies).response.Error? ==> Handle(s, req, env, replies).response.message != ""
  {
  }

  /** The handler keeps the schema's foreign keys intact. */
  lemma HandleKeepsConsistent(s: Store, req: Request, env: Environment, replies: Replies)
    requires forall i :: 0 <= i < |env.randomDigits| ==> IsBase36Lower(env.randomDigits[i])
    requires Consistent(s)
    ensures Consistent(Handle(s, req, env, replies).store)
  {
    var r := Handle(s, req, env, replies);
    if HasRequiredFields(req) && req.albumId.value in s.albums && HasNotificationId(s) {
      var id := env.newOrderId;
      var ins := PendingInsert(s, req, env);
      var inserted := InsertOrder(s, id, ins, env.defaults);
      if !env.insertFails && inserted.Some? {
        var s1 := inserted.value;
        InsertOrderKeepsConsistent(s, id, ins, env.defaults);
        var reply := replies.submit;
        if !Present(replies.token) {
          assert r.store == s1;
        } else if reply.error.Some? || !Present(reply.redirectUrl) {
          UpdateOrderKeepsConsistent(s1, id, OrderPatch(Some(Failed), None));
          assert r.store == UpdateOrder(s1, id, OrderPatch(Some(Failed), None));
        } else {
          UpdateOrderKeepsConsistent(s1, id, OrderPatch(None, Some(reply.trackingId)));
          assert r.store == UpdateOrder(s1, id, OrderPatch(None, Some(reply.trackingId)));
        }
      } else {
        assert r.store == s;
      }
    } else {
      assert r.store == s;
    }
  }
}

=== FILE: ipn_handler.dfy ===
/** The `pesapal-ipn-handler` function: the gateway's asynchronous payment
    notification. It acknowledges every callback; for a known order that is
    not yet completed it asks the gateway for the transaction's status,
    records the mapped status and tracking id, and records a payment when
    the status is completed. */
module IpnHandler {
  import opened Common
  import opened Text
  import opened Pesapal
  import opened Schema

  /** The callback's query parameters. */
  datatype Query = Query(
    trackingId: Option<string>,
    merchantReference: Option<string>,
    notificationType: Option<string>)

  /** The gateway's replies: the auth token and the transaction status. */
  datatype Replies = Replies(token: Option<string>, status: StatusReply)

  datatype Response =
    /** The acknowledgement the gateway expects, with body status "200". */
    | Ack(notificationType: Option<string>, trackingId: Option<string>, merchantReference: Option<string>)
    | Error(message: string)
  {
    function Code(): int {
      if Ack? then 200 else 500
    }
  }

  datatype Outcome = Outcome(store: Store, response: Response, calls: seq<GatewayCall>)

  const TokenFailed := "Failed to get Pesapal auth token"

  /** The acknowledgement echoing the callback's parameters. */
  function AckOf(q: Query): Response {
    Ack(q.notificationType, q.trackingId, q.merchantReference)
  }

  /** The status reply's description, lower-cased, equals `word`. */
  predicate DescribedAs(reply: StatusReply, word: string) {
    reply.description.Some? && Lower(reply.description.value) == word
  }

  /** The gateway reports success: described as completed or status code 1. */
  predicate ReportsCompleted(reply: StatusReply) {
    DescribedAs(reply, "completed") || reply.statusCode == Some(1)
  }

  /** The gateway reports failure: described as failed or status code 2. */
  predicate ReportsFailed(reply: StatusReply) {
    DescribedAs(reply, "failed") || reply.statusCode == Some(2)
  }

  /** Maps the gateway's status to an order status. A success report wins
      over a failure report; anything unrecognised stays pending. */
  function MapStatus(reply: StatusReply): (r: OrderStatus)
    ensures r != Cancelled
    ensures r == Completed <==> ReportsCompleted(reply)
    ensures r == Failed <==> !ReportsCompleted(reply) && ReportsFailed(reply)
  {
    var description := if reply.description.Some? then Some(Lower(reply.description.value)) else None;
    if description == Some("completed") || reply.statusCode == Some(1) then Completed
    else if description == Some("failed") || reply.statusCode == Some(2) then Failed
    else Pending
  }

  /** A reply that is neither described as completed or failed nor carries
      code 1 or 2 leaves the order pending: the mapping never guesses. */
  lemma UnrecognisedIsPending(reply: StatusReply)
    requires !DescribedAs(reply, "completed") && !DescribedAs(reply, "failed")
    requires reply.statusCode.None? || (reply.statusCode.value != 1 && reply.statusCode.value != 2)
    ensures MapStatus(reply) == Pending
  {
  }

  /** The description is compared without regard to the case of its letters. */
  lemma MapStatusIgnoresCase(reply: StatusReply)
    requires reply.description.Some?
    ensures MapStatus(reply.(description := Some(Lower(reply.description.value)))) == MapStatus(reply)
  {
    LowerIdempotent(reply.description.value);
  }

  /** The gateway's capitalised descriptions are recognised: "Completed"
      and "COMPLETED" complete the order, "Failed" and "FAILED" fail it. */
  lemma CapitalisedDescriptions(reply: StatusReply)
    requires reply.statusCode.None?
    ensures MapStatus(reply.(description := Some("Completed"))) == Completed
    ensures MapStatus(reply.(description := Some("COMPLETED"))) == Completed
    ensures MapStatus(reply.(description := Some("Failed"))) == Failed
    ensures MapStatus(reply.(description := Some("FAILED"))) == Failed
  {
    assert Lower("Completed") == "completed";
    assert Lower("COMPLETED") == "completed";
    assert Lower("Failed") == "failed";
    assert Lower("FAILED") == "failed";
  }

  /** The payment recorded for a completed transaction of order `id`. */
  function PaymentFor(id: string, o: Order, reply: StatusReply, trackingId: string): (p: Payment)
    ensures p.orderId == id && p.paymentStatus == "completed" && p.rawResponse == Some(reply)
    // `payment_method || null`
    ensures p.paymentMethod.Some? <==> Present(reply.paymentMethod)
    ensures Present(reply.paymentMethod) ==> p.paymentMethod == reply.paymentMethod
    // `confirmation_code || orderTrackingId`
    ensures Present(reply.confirmationCode) ==> p.transactionId == reply.confirmationCode
    ensures !Present(reply.confirmationCode) ==> p.transactionId == Some(trackingId)
    // `amount || order.amount` and `currency || order.currency`
    ensures p.amount == Some(AmountOr(reply.amount, o.amount))
    ensures Present(reply.currency) ==> p.currency == reply.currency
    ensures !Present(reply.currency) ==> p.currency == Some(o.currency)
  {
    Payment(id, "completed", OrNull(reply.paymentMethod),
            Some(if Present(reply.confirmationCode) then reply.confirmationCode.value else trackingId),
            Some(AmountOr(reply.amount, o.amount)),
            Some(if Present(reply.currency) then reply.currency.value else o.currency),
            Some(reply))
  }

  /** The order the callback would act on: its parameters are present, its
      merchant reference names exactly one order, and that order is not
      completed. */
  predicate Actionable(s: Store, q: Query) {
    && Present(q.trackingId) && Present(q.merchantReference)
    && FindByRef(s, q.merchantReference.value).One?
    && s.orders[FindByRef(s, q.merchantReference.value).row].status != Completed
  }

  /** The handler. */
  function Handle(s: Store, q: Query, replies: Replies): (r: Outcome)
    // Callbacks it cannot act on are acknowledged with no request and no write.
    ensures !Actionable(s, q) ==> r == Outcome(s, AckOf(q), [])
    // A failed token request is the only error, and it writes nothing.
    ensures r.response.Error? ==> r.response == Error(TokenFailed) && r.store == s
    ensures r.response.Ack? ==> r.response == AckOf(q)
    // Without a token an actionable callback is answered with the error, so
    // that the gateway retries it.
    ensures Actionable(s, q) && !Present(replies.token) ==> r == Outcome(s, Error(TokenFailed), [RequestToken])
    // Only the referenced order can change, and a completed order never does.
    ensures r.store.orders.Keys == s.orders.Keys
    ensures forall k :: k in s.orders && s.orders[k].status == Completed ==> r.store.orders[k] == s.orders[k]
    ensures r.store.albums == s.albums && r.store.config == s.config && r.store.accessLogs == s.accessLogs
    // Existing payments are kept; at most one is added.
    ensures |s.payments| <= |r.store.payments| <= |s.payments| + 1
    ensures r.store.payments[..|s.payments|] == s.payments
    // When it acts, the order takes the mapped status and the callback's
    // tracking id, and a payment is added iff the mapped status is completed.
    ensures Actionable(s, q) && Present(replies.token) ==>
              var id := FindByRef(s, q.merchantReference.value).row;
              var st := MapStatus(replies.status);
              && r.response == AckOf(q)
              && r.calls == [RequestToken, GetTransactionStatus(q.trackingId.value)]
              && r.store.orders == s.orders[id := s.orders[id].(status := st, trackingId := q.trackingId)]
              && (st == Completed <==> |r.store.payments| == |s.payments| + 1)
              && (st == Completed ==>
                    r.store.payments[|s.payments|]
                      == PaymentFor(id, s.orders[id], replies.status, q.trackingId.value))
  {
    if !Actionable(s, q) then Outcome(s, AckOf(q), [])
    else if !Present(replies.token) then Outcome(s, Error(TokenFailed), [RequestToken])
    else
      var trackingId := q.trackingId.value;
      var id := FindByRef(s, q.merchantReference.value).row;
      var order := s.orders[id];
      var calls := [RequestToken, GetTransactionStatus(trackingId)];
      var st := MapStatus(replies.status);
      var s1 := UpdateOrder(s, id, OrderPatch(Some(st), Some(q.trackingId)));
      if st == Completed then
        var s2 := InsertPayment(s1, PaymentFor(id, order, replies.status, trackingId));
        assert (s1.payments + [PaymentFor(id, order, replies.status, trackingId)])[..|s.payments|] == s.payments;
        Outcome(s2.value, AckOf(q), calls)
      else
        Outcome(s1, AckOf(q), calls)
  }

  /** The handler contacts the gateway exactly for the callbacks it can act
      on, and only those can change the store. */
  lemma OnlyActionableCallbacksAct(s: Store, q: Query, replies: Replies)
    ensures Handle(s, q, replies).calls != [] <==> Actionable(s, q)
    ensures Handle(s, q, replies).store != s ==> Actionable(s, q) && Present(replies.token)
  {
  }

  /** The handler keeps the schema's foreign keys intact. */
  lemma HandleKeepsConsistent(s: Store, q: Query, replies: Replies)
    requires Consistent(s)
    ensures Consistent(Handle(s, q, replies).store)
  {
    if Actionable(s, q) && Present(replies.token) {
      var id := FindByRef(s, q.merchantReference.value).row;
      var st := MapStatus(replies.status);
      var s1 := UpdateOrder(s, id, OrderPatch(Some(st), Some(q.trackingId)));
      UpdateOrderKeepsConsistent(s, id, OrderPatch(Some(st), Some(q.trackingId)));
      if st == Completed {
        InsertPaymentKeepsConsistent(s1, PaymentFor(id, s.orders[id], replies.status, q.trackingId.value));
      }
    }
  }
}

=== FILE: media_orders.dfy ===
/** The records of the second, media-order flow: orders that name a list of
    media items by id and a buyer by e-mail, and the buyer profiles whose
    `purchased_items` list grows as orders are paid. Holds the one real data
    structure operation of that flow, the duplicate-free merge of item lists
    (`Array.from(new Set([...held, ...bought]))`). */
module MediaOrders {
  import opened Common

  /** A row of this flow's `orders`; the row's `id` is its key. */
  datatype MediaOrder = MediaOrder(
    email: string,
    mediaIds: seq<string>,
    amount: int,
    status: string,
    pesapalId: Option<string>)

  /** A row of `profiles`; the row's `id` is its key. A missing
      `purchased_items` is `None`. */
  datatype Profile = Profile(email: string, purchasedItems: Option<seq<string>>)

  datatype MediaStore = MediaStore(orders: map<string, MediaOrder>, profiles: map<string, Profile>)

  /** The status a fresh order is inserted with. */
  const PendingStatus := "pending"

  /** The row the two checkout paths insert. */
  function PendingOrder(email: string, mediaIds: seq<string>, amount: int): (o: MediaOrder)
    ensures o.status == PendingStatus && o.pesapalId == None
  {
    MediaOrder(email, mediaIds, amount, PendingStatus, None)
  }

  /** Inserting an order under a database-assigned id; a primary-key clash
      is the one failure the store itself produces. */
  function InsertOrder(s: MediaStore, id: string, o: MediaOrder): (r: Option<MediaStore>)
    ensures r.Some? <==> id !in s.orders
    ensures r.Some? ==> r.value.orders == s.orders[id := o] && r.value.profiles == s.profiles
  {
    if id in s.orders then None else Some(s.(orders := s.orders[id := o]))
  }

  /** The message the database gives for a primary-key clash on `orders`. */
  const DuplicateKey := "duplicate key value violates unique constraint \"orders_pkey\""

  /** An error as the client hands it over: its message, and whether it is
      an `Error` instance (which depends on the client library's version). */
  datatype ClientError = ClientError(message: string, isErrorInstance: bool)

  const UnknownError := "Unknown error"

  /** `error instanceof Error ? error.message : 'Unknown error'`. */
  function ErrorText(e: ClientError): (t: string)
    ensures e.isErrorInstance ==> t == e.message
    ensures !e.isErrorInstance ==> t == UnknownError
  {
    if e.isErrorInstance then e.message else UnknownError
  }

  /** The ids of the profiles registered under `email`. */
  function ProfilesWithEmail(profiles: map<string, Profile>, email: string): set<string> {
    set k | k in profiles && profiles[k].email == email
  }

  predicate NoDuplicates(xs: seq<string>) {
    forall i, j :: 0 <= i < j < |xs| ==> xs[i] != xs[j]
  }

  /** Index of the first occurrence of `x` in `xs`, or `|xs|` when absent. */
  function Position(xs: seq<string>, x: string): (k: nat)
    ensures k <= |xs|
    ensures k < |xs| <==> x in xs
    ensures k < |xs| ==> xs[k] == x && x !in xs[..k]
    decreases |xs|
  {
    if |xs| == 0 then 0
    else if xs[0] == x then 0
    else
      assert xs[1..][..Position(xs[1..], x)] == xs[1..1 + Position(xs[1..], x)];
      1 + Position(xs[1..], x)
  }

  /** The elements of `xs` in order of first occurrence, each once: what a
      JavaScript `Set` built from `xs` enumerates. */
  function Dedup(xs: seq<string>): (r: seq<string>)
    ensures NoDuplicates(r)
    ensures forall x :: x in r <==> x in xs
    decreases |xs|
  {
    if |xs| == 0 then []
    else
      var init := xs[..|xs| - 1];
      var last := xs[|xs| - 1];
      assert xs == init + [last];
      var p := Dedup(init);
      if last in p then p else p + [last]
  }

  /** The items a profile holds after buying `bought` on top of `held`:
      each held or bought item once, and a duplicate-free held list kept
      as it was at the front. */
  function Merge(held: seq<string>, bought: seq<string>): (r: seq<string>)
    ensures NoDuplicates(r)
    ensures forall x :: x in r <==> x in held || x in bought
    ensures NoDuplicates(held) ==> |held| <= |r| && r[..|held|] == held
  {
    DedupExtends(held, bought);
    if NoDuplicates(held) then
      DedupOfDistinct(held);
      Dedup(held + bought)
    else Dedup(held + bought)
  }

  /** Deduplicating a longer list only appends to the deduplication of its
      prefix. */
  lemma {:induction false} DedupExtends(xs: seq<string>, ys: seq<string>)
    ensures |Dedup(xs)| <= |Dedup(xs + ys)|
    ensures Dedup(xs + ys)[..|Dedup(xs)|] == Dedup(xs)
    decreases |ys|
  {
    if |ys| == 0 {
      assert xs + ys == xs;
    } else {
      var zs := xs + ys;
      assert zs[..|zs| - 1] == xs + ys[..|ys| - 1];
      DedupExtends(xs, ys[..|ys| - 1]);
      var p := Dedup(zs[..|zs| - 1]);
      assert zs == zs[..|zs| - 1] + [zs[|zs| - 1]];
      assert (p + [zs[|zs| - 1]])[..|Dedup(xs)|] == p[..|Dedup(xs)|];
    }
  }

  /** Dedup keeps the order of first occurrences: of two items, the one met
      first in `xs` comes first. */
  lemma {:induction false} DedupKeepsFirstOccurrenceOrder(xs: seq<string>)
    ensures forall i, j :: 0 <= i < j < |Dedup(xs)| ==>
              Position(xs, Dedup(xs)[i]) < Position(xs, Dedup(xs)[j])
    decreases |xs|
  {
    if |xs| > 0 {
      var init := xs[..|xs| - 1];
      var last := xs[|xs| - 1];
      assert xs == init + [last];
      DedupKeepsFirstOccurrenceOrder(init);
      var p := Dedup(init);
      forall x | x in init
        ensures Position(xs, x) == Position(init, x)
      {
        PositionInPrefix(init, [last], x);
      }
      if last !in p {
        assert last !in init;
        PositionAfterPrefix(init, last);
        forall i, j | 0 <= i < j < |Dedup(xs)|
          ensures Position(xs, Dedup(xs)[i]) < Position(xs, Dedup(xs)[j])
        {
          assert Dedup(xs) == p + [last];
          assert p[i] in init;
          if j < |p| {
            assert p[j] in init;
          }
        }
      }
    }
  }

  /** The first occurrence of an item present in `a` is the same in `a + b`. */
  lemma {:induction false} PositionInPrefix(a: seq<string>, b: seq<string>, x: string)
    requires x in a
    ensures Position(a + b, x) == Position(a, x)
    decreases |a|
  {
    if a[0] != x {
      assert (a + b)[1..] == a[1..] + b;
      PositionInPrefix(a[1..], b, x);
    }
  }

  /** An item absent from `a` is first met right after it in `a + [x]`. */
  lemma {:induction false} PositionAfterPrefix(a: seq<string>, x: string)
    requires x !in a
    ensures Position(a + [x], x) == |a|
    decreases |a|
  {
    if |a| > 0 {
      assert (a + [x])[1..] == a[1..] + [x];
      PositionAfterPrefix(a[1..], x);
    }
  }

  /** A list without duplicates is its own deduplication. */
  lemma {:induction false} DedupOfDistinct(xs: seq<string>)
    requires NoDuplicates(xs)
    ensures Dedup(xs) == xs
    decreases |xs|
  {
    if |xs| > 0 {
      var init := xs[..|xs| - 1];
      assert NoDuplicates(init);
      DedupOfDistinct(init);
      assert xs == init + [xs[|xs| - 1]];
    }
  }

  /** Appending items that are already present changes nothing. */
  lemma {:induction false} DedupAppendKnown(xs: seq<string>, ys: seq<string>)
    requires forall y :: y in ys ==> y in xs
    ensures Dedup(xs + ys) == Dedup(xs)
    decreases |ys|
  {
    if |ys| == 0 {
      assert xs + ys == xs;
    } else {
      var zs := xs + ys;
      assert zs[..|zs| - 1] == xs + ys[..|ys| - 1];
      DedupAppendKnown(xs, ys[..|ys| - 1]);
      assert zs[|zs| - 1] == ys[|ys| - 1];
    }
  }

  /** Merging the same purchase twice gives what merging it once gave. */
  lemma MergeIdempotent(held: seq<string>, bought: seq<string>)
    ensures Merge(Merge(held, bought), bought) == Merge(held, bought)
  {
    var d := Merge(held, bought);
    DedupAppendKnown(d, bought);
    DedupOfDistinct(d);
  }

  /** The merge as the JavaScript engine performs it: one pass that appends
      each item not yet in the set built so far. */
  method MergeItems(held: seq<string>, bought: seq<string>) returns (r: seq<string>)
    ensures r == Merge(held, bought)
    ensures NoDuplicates(r)
  {
    var xs := held + bought;
    var seen: set<string> := {};
    r := [];
    for i := 0 to |xs|
      invariant r == Dedup(xs[..i])
      invariant forall x :: x in seen <==> x in r
    {
      assert xs[..i + 1][..i] == xs[..i];
      if xs[i] !in seen {
        r := r + [xs[i]];
        seen := seen + {xs[i]};
      }
    }
    assert xs[..|xs|] == xs;
  }
}

=== FILE: payment_callback.dfy ===
/** The payment callback page's `verifyPayment`: where the shopper lands after
    paying. It asks `verify-transaction` about the payment named in the URL
    (or, failing that, about the order reference remembered in local storage),
    turns the answer into one of the page's outcomes, and forgets the
    remembered reference once the payment has a final answer. */
module PaymentCallback {
  import opened Common
  import Schema
  import VerifyTransaction

  /** The `OrderTrackingId` and `OrderMerchantReference` URL parameters. */
  datatype Params = Params(trackingId: Option<string>, merchantReference: Option<string>)

  /** What the function invocation produced: a reply whose `data.status` may
      be missing (an error reply has no data), or a thrown exception. */
  datatype Answer = Replied(status: Option<string>) | Threw

  /** The page's state after verification (`loading` is the state before). */
  datatype PageStatus = Loading | Success | Failed | Pending

  /** The page state, the remembered reference afterwards, and the
      verification request sent, if any. */
  datatype Outcome = Outcome(
    status: PageStatus,
    message: string,
    pendingRef: Option<string>,
    request: Option<VerifyTransaction.Request>)

  const SuccessMessage := "Your payment was successful! You now have access to the album."
  const FailedMessage := "Your payment was not successful. Please try again."
  const StoredPendingMessage := "Your payment is being processed. Please wait..."
  const ParamsPendingMessage := "Your payment is being processed. This may take a few moments..."
  const UnreachableMessage := "Unable to verify payment status. Please check your email for confirmation."
  const NothingToVerify := "No payment information found."

  /** The request body `{ merchantReference: ref }` sent for a remembered reference. */
  function StoredRefRequest(ref: string): (r: VerifyTransaction.Request)
    ensures VerifyTransaction.SuppliedReference(r) == Some(ref)
    ensures VerifyTransaction.SuppliedTrackingId(r) == None
  {
    VerifyTransaction.Request(None, None, true, None, Some(ref))
  }

  /** The request body carrying both URL parameters: a POST without query
      parameters, so the function reads each id from the body. */
  function ParamsRequest(p: Params): (r: VerifyTransaction.Request)
    ensures VerifyTransaction.SuppliedTrackingId(r) == p.trackingId
    ensures VerifyTransaction.SuppliedReference(r) == p.merchantReference
  {
    VerifyTransaction.Request(None, None, true, p.trackingId, p.merchantReference)
  }

  /** Interprets an answer; `pendingMessage` differs between the two paths. */
  function Interpret(a: Answer, ref: Option<string>, pendingMessage: string,
                     req: VerifyTransaction.Request): (r: Outcome)
    ensures r.request == Some(req)
    ensures r.status == Success <==> a == Replied(Some("completed"))
    ensures r.status == Failed <==> a == Replied(Some("failed"))
    ensures r.status == Success || r.status == Failed || r.status == Pending
    // A final answer forgets the reference; anything else keeps it.
    ensures r.pendingRef == (if r.status == Pending then ref else None)
    ensures a == Threw ==> r.message == UnreachableMessage
  {
    match a
    case Threw => Outcome(Pending, UnreachableMessage, ref, Some(req))
    case Replied(status) =>
      if status == Some("completed") then Outcome(Success, SuccessMessage, None, Some(req))
      else if status == Some("failed") then Outcome(Failed, FailedMessage, None, Some(req))
      else Outcome(Pending, pendingMessage, ref, Some(req))
  }

  /** The page's verification step, given the URL parameters, the
      remembered reference and the answer to the request it sends. */
  function VerifyPayment(p: Params, stored: Option<string>, a: Answer): (r: Outcome)
    // With neither URL parameter nor remembered reference: failed, nothing sent.
    ensures !Present(p.trackingId) && !Present(p.merchantReference) && !Present(stored)
            ==> r == Outcome(Failed, NothingToVerify, stored, None)
    // Without URL parameters the remembered reference alone is verified.
    ensures !Present(p.trackingId) && !Present(p.merchantReference) && Present(stored)
            ==> r.request == Some(StoredRefRequest(stored.value))
    ensures Present(p.trackingId) || Present(p.merchantReference) ==> r.request == Some(ParamsRequest(p))
    // Once a request is sent: success exactly for "completed", failure
    // exactly for "failed", pending otherwise (a thrown error included).
    ensures r.request.Some? ==>
              && (r.status == Success <==> a == Replied(Some("completed")))
              && (r.status == Failed <==> a == Replied(Some("failed")))
              && (r.status == Pending <==> a != Replied(Some("completed")) && a != Replied(Some("failed")))
    // The remembered reference is removed exactly on a final answer.
    ensures r.pendingRef == (if r.status == Pending || r.request.None? then stored else None)
    ensures r.status != Loading
  {
    if !Present(p.trackingId) && !Present(p.merchantReference) then
      if Present(stored) then Interpret(a, stored, StoredPendingMessage, StoredRefRequest(stored.value))
      else Outcome(Failed, NothingToVerify, stored, None)
    else Interpret(a, stored, ParamsPendingMessage, ParamsRequest(p))
  }

  /** What the function invocation returns for a handler outcome: the status
      field of a success body, no data for an error reply. */
  function AnswerOf(resp: VerifyTransaction.Response): Answer {
    if resp.Verified? then Replied(Some(resp.status)) else Replied(None)
  }

  /** End to end: when the page's request reaches `verify-transaction`, the
      page shows success exactly when the gateway reports completion and
      failure exactly when it reports failure without completion; an error
      reply (missing ids, unknown tracking id, no token) leaves it pending. */
  lemma PageFollowsVerifier(s: Schema.Store, p: Params, stored: Option<string>, replies: VerifyTransaction.Replies)
    requires Present(p.trackingId) || Present(p.merchantReference) || Present(stored)
    ensures var req := if Present(p.trackingId) || Present(p.merchantReference)
                       then ParamsRequest(p) else StoredRefRequest(stored.value);
            var resp := VerifyTransaction.Handle(s, req, replies).response;
            var r := VerifyPayment(p, stored, AnswerOf(resp));
            && (r.status == Success <==> resp.Verified? && VerifyTransaction.VerifiedStatus(replies.status) == "completed")
            && (r.status == Failed <==> resp.Verified? && VerifyTransaction.VerifiedStatus(replies.status) == "failed")
            && (resp.Error? ==> r.status == Pending && r.pendingRef == stored)
  {
  }

  /** A remembered reference that names exactly one order is verified
      against that order: the verifier finds it and uses its tracking id. */
  lemma StoredRefFindsOrder(s: Schema.Store, ref: string, id: string)
    requires ref != "" && Schema.FindByRef(s, ref) == One(id)
    ensures VerifyTransaction.FoundOrder(s, StoredRefRequest(ref)) == Some(id)
    ensures VerifyTransaction.ResolvedTrackingId(s, StoredRefRequest(ref)) == s.orders[id].trackingId
  {
  }
}

=== FILE: pesapal.dfy ===
/** The Pesapal payment gateway as the handlers see it: the requests they
    send and the replies they read. Replies are inputs of the model; a
    handler's trace of requests is part of its result. */
module Pesapal {
  import opened Common

  /** A truthy `error` object in a gateway reply, with its optional message. */
  datatype GatewayFault = GatewayFault(message: Option<string>)

  /** `error?.message || fallback`. */
  function FaultMessage(f: Option<GatewayFault>, fallback: string): (m: string)
    ensures fallback != "" ==> m != ""
    ensures f.Some? && Present(f.value.message) ==> m == f.value.message.value
    ensures !(f.Some? && Present(f.value.message)) ==> m == fallback
  {
    if f.Some? && Present(f.value.message) then f.value.message.value else fallback
  }

  /** Reply of `POST /api/Transactions/SubmitOrderRequest`. */
  datatype SubmitReply = SubmitReply(
    error: Option<GatewayFault>,
    redirectUrl: Option<string>,
    trackingId: Option<string>)

  /** Reply of `GET /api/Transactions/GetTransactionStatus`. */
  datatype StatusReply = StatusReply(
    description: Option<string>,
    statusCode: Option<int>,
    paymentMethod: Option<string>,
    confirmationCode: Option<string>,
    amount: Option<int>,
    currency: Option<string>)

  /** Reply of `POST /api/URLSetup/RegisterIPN`. */
  datatype RegisterReply = RegisterReply(error: Option<GatewayFault>, ipnId: Option<string>)

  datatype BillingAddress = BillingAddress(emailAddress: string, firstName: string, lastName: string)

  /** Body of a submitted order request. */
  datatype SubmitPayload = SubmitPayload(
    id: string,
    currency: string,
    amount: int,
    description: string,
    callbackUrl: string,
    notificationId: string,
    billing: BillingAddress)

  /** One request to the gateway, in the order a handler issues them. */
  datatype GatewayCall =
    | RequestToken
    | SubmitOrderRequest(payload: SubmitPayload)
    | GetTransactionStatus(trackingId: string)
    | RegisterIpn(url: string, notificationType: string)

  /** `x || fallback` for a numeric reply field: absent and `0` are falsy. */
  function AmountOr(x: Option<int>, fallback: int): (r: int)
    ensures x.Some? && x.value != 0 ==> r == x.value
    ensures x.None? || x.value == 0 ==> r == fallback
  {
    if x.Some? && x.value != 0 then x.value else fallback
  }
}

=== FILE: premium_content.dfy ===
/** The premium page: the access gate that admits only a buyer of the
    premium album (and logs each admission), and the list of configured
    premium videos. */
module PremiumContent {
  import opened Common
  import opened Text
  import opened Schema
  import AlbumDetail

  /** The album whose purchase opens the premium page. */
  const PremiumAlbumId := "e19079e7-4f19-4dee-873f-3fc17a4ee914"

  /** How the purchase query ends apart from its rows: normally, with an
      error reply, or with a thrown exception. */
  datatype QueryFault = NoFault | ErrorReply | Thrown

  datatype Toast = Toast(title: string, description: string)

  /** The store afterwards, whether access was granted, the loading flag,
      where the page navigated, and the toast shown. */
  datatype Outcome = Outcome(store: Store, hasAccess: bool, loading: bool, location: Option<string>, toast: Option<Toast>)

  const LoginPage := "/login"
  const AlbumsPage := "/album"
  const PleaseLogIn := Toast("Access Denied", "Please log in to access premium content.")
  const CannotVerify := Toast("Error", "Unable to verify your access. Please try again.")
  const NotPurchased := Toast("Access Denied", "You need to purchase the premium album to access this content.")

  /** The access check for the signed-in visitor's e-mail (`None` when
      signed out); `now` is the timestamp written to the access log. The log
      insert's error is ignored: a row the album foreign key refuses is
      simply not written. */
  function CheckPremiumAccess(s: Store, user: Option<string>, fault: QueryFault, now: string): (r: Outcome)
    ensures user.None? ==> r == Outcome(s, false, false, Some(LoginPage), Some(PleaseLogIn))
    // Access exactly for a visitor with a single completed premium order.
    ensures r.hasAccess <==> user.Some? && fault == NoFault && FindPurchase(s, user.value, PremiumAlbumId).One?
    // An admission stays on the page and writes at most one log row, the
    // visitor's; nothing else changes.
    ensures r.hasAccess ==>
              && r.location.None?
              && (r.store == s || r.store == s.(accessLogs := s.accessLogs + [AccessLog(user.value, PremiumAlbumId, now)]))
              && (PremiumAlbumId in s.albums ==> r.store.accessLogs == s.accessLogs + [AccessLog(user.value, PremiumAlbumId, now)])
    // A refusal writes nothing and leaves the page.
    ensures !r.hasAccess ==> r.store == s && r.location.Some?
    ensures user.Some? && !r.hasAccess ==> r.location == Some(AlbumsPage)
    // A thrown query shows nothing; no completed order asks for the
    // purchase; an error reply, including maybeSingle's refusal of several
    // completed orders, cannot verify.
    ensures user.Some? && !r.hasAccess ==>
              r.toast == (if fault == Thrown then None
                          else if fault == NoFault && FindPurchase(s, user.value, PremiumAlbumId).NoRow? then Some(NotPurchased)
                          else Some(CannotVerify))
    ensures r.hasAccess ==> r.toast.None?
    ensures !r.loading
  {
    if user.None? then Outcome(s, false, false, Some(LoginPage), Some(PleaseLogIn))
    else
      match fault
      case Thrown => Outcome(s, false, false, Some(AlbumsPage), None)
      case ErrorReply => Outcome(s, false, false, Some(AlbumsPage), Some(CannotVerify))
      case NoFault =>
        match FindPurchase(s, user.value, PremiumAlbumId)
        case Many => Outcome(s, false, false, Some(AlbumsPage), Some(CannotVerify))
        case NoRow => Outcome(s, false, false, Some(AlbumsPage), Some(NotPurchased))
        case One(_) =>
          var logged := InsertAccessLog(s, AccessLog(user.value, PremiumAlbumId, now));
          Outcome(logged.GetOr(s), true, false, None, None)
  }

  /** In a store whose foreign keys hold, every admission is logged: the
      completed order names the premium album, so the album exists. */
  lemma {:induction false} AdmissionIsLogged(s: Store, user: Option<string>, now: string)
    requires Consistent(s)
    requires CheckPremiumAccess(s, user, NoFault, now).hasAccess
    ensures CheckPremiumAccess(s, user, NoFault, now).store.accessLogs
            == s.accessLogs + [AccessLog(user.value, PremiumAlbumId, now)]
    ensures Consistent(CheckPremiumAccess(s, user, NoFault, now).store)
  {
    var id := FindPurchase(s, user.value, PremiumAlbumId).row;
    assert s.orders[id].albumId == PremiumAlbumId;
  }

  /** The premium page admits exactly the visitors the album page counts as
      having bought the premium album. */
  lemma AccessAgreesWithAlbumPage(s: Store, user: Option<string>, now: string)
    ensures CheckPremiumAccess(s, user, NoFault, now).hasAccess
            <==> AlbumDetail.HasPurchased(s, user, PremiumAlbumId)
  {
  }

  /** A visitor with no completed premium order is refused, with the
      "purchase" explanation. */
  lemma NoCompletedOrderNoAccess(s: Store, email: string, now: string)
    requires forall id :: (id in s.orders && s.orders[id].customerEmail == email
                           && s.orders[id].albumId == PremiumAlbumId) ==> s.orders[id].status != Completed
    ensures CheckPremiumAccess(s, Some(email), NoFault, now)
            == Outcome(s, false, false, Some(AlbumsPage), Some(NotPurchased))
  {
  }

  /** One video setting: the id and title read from the environment. */
  datatype VideoSetting = VideoSetting(id: Option<string>, title: Option<string>)

  datatype Video = Video(id: string, title: string)

  /** The title used when none is configured for the `k`-th video (from 1). */
  function DefaultTitle(k: nat): string {
    "Premium Show #" + Decimal(k)
  }

  /** The video built from the `k`-th setting (from 1): a missing or empty
      id becomes "", a missing or empty title the default. */
  function VideoOf(k: nat, v: VideoSetting): (r: Video)
    ensures r.id != "" <==> Present(v.id)
    ensures Present(v.id) ==> r.id == v.id.value
    ensures Present(v.title) ==> r.title == v.title.value
    ensures !Present(v.title) ==> r.title == DefaultTitle(k)
  {
    Video(if Present(v.id) then v.id.value else "",
          if Present(v.title) then v.title.value else DefaultTitle(k))
  }

  /** The videos with a non-empty id, in order (`.filter(video => video.id)`). */
  function WithIds(vs: seq<Video>): (r: seq<Video>)
    ensures |r| <= |vs|
    ensures forall v :: v in r <==> v in vs && v.id != ""
    // A single video is kept exactly when it has an id.
    ensures |vs| == 1 ==> r == (if vs[0].id != "" then vs else [])
    decreases |vs|
  {
    if |vs| == 0 then []
    else if vs[0].id != "" then [vs[0]] + WithIds(vs[1..])
    else WithIds(vs[1..])
  }

  /** Filtering a list is filtering its parts in order: with the single
      video case, this fixes both the order and the multiplicity of what
      the filter keeps. */
  lemma {:induction false} WithIdsAppend(a: seq<Video>, b: seq<Video>)
    ensures WithIds(a + b) == WithIds(a) + WithIds(b)
    decreases |a|
  {
    if |a| > 0 {
      assert (a + b)[0] == a[0];
      assert (a + b)[1..] == a[1..] + b;
      WithIdsAppend(a[1..], b);
    } else {
      assert a + b == b;
    }
  }

  /** The default titles of the three videos. */
  lemma DefaultTitles()
    ensures DefaultTitle(1) == "Premium Show #1"
    ensures DefaultTitle(2) == "Premium Show #2"
    ensures DefaultTitle(3) == "Premium Show #3"
  {
  }

  /** `PREMIUM_VIDEOS`: the three configured videos that have an id. */
  function PremiumVideos(settings: seq<VideoSetting>): (r: seq<Video>)
    requires |settings| == 3
    ensures |r| <= 3
    ensures forall v :: v in r ==> v.id != ""
    ensures forall i :: 0 <= i < 3 && Present(settings[i].id) ==> VideoOf(i + 1, settings[i]) in r
    // The configured videos in their configured order, each once.
    ensures r == Kept(1, settings[0]) + Kept(2, settings[1]) + Kept(3, settings[2])
  {
    var candidates := [VideoOf(1, settings[0]), VideoOf(2, settings[1]), VideoOf(3, settings[2])];
    assert forall i :: 0 <= i < 3 ==> candidates[i] == VideoOf(i + 1, settings[i]);
    assert candidates == [candidates[0]] + [candidates[1]] + [candidates[2]];
    WithIdsAppend([candidates[0]] + [candidates[1]], [candidates[2]]);
    WithIdsAppend([candidates[0]], [candidates[1]]);
    WithIds(candidates)
  }

  /** The `k`-th video as a list of at most one: kept when it has an id. */
  function Kept(k: nat, v: VideoSetting): (r: seq<Video>)
    ensures |r| <= 1
    ensures r != [] <==> Present(v.id)
  {
    if Present(v.id) then [VideoOf(k, v)] else []
  }
}

=== FILE: reconciliation.dfy ===
/** Properties of the payment reconciliation as a whole: how the order
    creation, notification and verification handlers interact through the
    shared store. Every handler is a transition `(store, request, replies)
    -> (store', response)`; the lemmas here relate several transitions. */
module Reconciliation {
  import opened Common
  import opened Text
  import opened Pesapal
  import opened Schema
  import CreateOrder
  import IpnHandler
  import VerifyTransaction
  import RegisterIpn

  /** The notification handler and the verifier derive the same status from
      every gateway reply, and record the same payment row. */
  lemma StatusMappingsAgree(reply: StatusReply)
    ensures VerifyTransaction.VerifiedStatus(reply) == StatusName(IpnHandler.MapStatus(reply))
    ensures ParseStatus(VerifyTransaction.VerifiedStatus(reply)) == Some(IpnHandler.MapStatus(reply))
  {
  }

  lemma PaymentRowsAgree(id: string, o: Order, reply: StatusReply, trackingId: string)
    ensures VerifyTransaction.PaymentFor(id, o, reply, trackingId) == IpnHandler.PaymentFor(id, o, reply, trackingId)
  {
  }

  /** Updating status or tracking id never changes which order a merchant
      reference names. */
  lemma {:induction false} UpdateKeepsReferences(s: Store, id: string, p: OrderPatch, ref: string)
    ensures FindByRef(UpdateOrder(s, id, p), ref) == FindByRef(s, ref)
  {
    var s1 := UpdateOrder(s, id, p);
    assert forall k :: k in s.orders ==> s1.orders[k].merchantReference == s.orders[k].merchantReference;
    assert OrdersWithRef(s1.orders, ref) == OrdersWithRef(s.orders, ref);
  }

  /** The merchant reference the initiator generates is the one the
      notification handler and the verifier resolve: after a successful
      creation it names exactly the new order, unless an older order already
      carried the same reference. */
  lemma ReferenceResolvesToNewOrder(s: Store, req: CreateOrder.Request, env: CreateOrder.Environment,
                                    replies: CreateOrder.Replies)
    requires forall i :: 0 <= i < |env.randomDigits| ==> IsBase36Lower(env.randomDigits[i])
    requires CreateOrder.Handle(s, req, env, replies).response.Created?
    requires forall k :: k in s.orders ==> s.orders[k].merchantReference != CreateOrder.MerchantReference(env.now, env.randomDigits)
    ensures var r := CreateOrder.Handle(s, req, env, replies);
            FindByRef(r.store, r.response.merchantReference) == One(r.response.orderId)
  {
    var r := CreateOrder.Handle(s, req, env, replies);
    var ref := r.response.merchantReference;
    assert OrdersWithRef(r.store.orders, ref) == {env.newOrderId};
  }

  /** Two identical callbacks in a row for an order the gateway reports
      completed: the first completes the order and records one payment, the
      second (whatever the gateway would say) is acknowledged with no request
      and no write. */
  lemma DuplicateCallbackRecordsOnePayment(s: Store, q: IpnHandler.Query, replies: IpnHandler.Replies,
                                           replies2: IpnHandler.Replies)
    requires IpnHandler.Actionable(s, q) && Present(replies.token)
    requires IpnHandler.ReportsCompleted(replies.status)
    ensures var id := FindByRef(s, q.merchantReference.value).row;
            var s1 := IpnHandler.Handle(s, q, replies).store;
            && s1.orders[id].status == Completed
            && PaymentCount(s1.payments, id) == PaymentCount(s.payments, id) + 1
            && IpnHandler.Handle(s1, q, replies2) == IpnHandler.Outcome(s1, IpnHandler.AckOf(q), [])
  {
    var id := FindByRef(s, q.merchantReference.value).row;
    var st := IpnHandler.MapStatus(replies.status);
    var patch := OrderPatch(Some(st), Some(q.trackingId));
    var s1 := IpnHandler.Handle(s, q, replies).store;
    UpdateKeepsReferences(s, id, patch, q.merchantReference.value);
    var p := IpnHandler.PaymentFor(id, s.orders[id], replies.status, q.trackingId.value);
    assert s1.payments == s.payments + [p];
    PaymentCountAppend(s.payments, p, id);
    assert FindByRef(s1, q.merchantReference.value) == FindByRef(s, q.merchantReference.value) by {
      assert s1.orders == UpdateOrder(s, id, patch).orders;
      assert OrdersWithRef(s1.orders, q.merchantReference.value)
          == OrdersWithRef(UpdateOrder(s, id, patch).orders, q.merchantReference.value);
    }
  }

  /** Every order has at most one payment. */
  ghost predicate AtMostOnePayment(s: Store) {
    forall k :: k in s.orders ==> PaymentCount(s.payments, k) <= 1
  }

  /** Every completed order has a payment. */
  ghost predicate PaidWhenCompleted(s: Store) {
    forall k :: k in s.orders && s.orders[k].status == Completed ==> PaymentCount(s.payments, k) >= 1
  }

  /** Only completed orders have payments. */
  ghost predicate PaidOnlyWhenCompleted(s: Store) {
    forall k :: k in s.orders && PaymentCount(s.payments, k) > 0 ==> s.orders[k].status == Completed
  }

  /** Appending a payment for `id` changes no other order's count. */
  lemma AppendCounts(ps: seq<Payment>, p: Payment)
    ensures forall k :: PaymentCount(ps + [p], k) == PaymentCount(ps, k) + (if p.orderId == k then 1 else 0)
  {
    forall k
      ensures PaymentCount(ps + [p], k) == PaymentCount(ps, k) + (if p.orderId == k then 1 else 0)
    {
      PaymentCountAppend(ps, p, k);
    }
  }

  /** The verifier never gives an order a second payment: it adds one only
      to an order that has none (or, already, several). */
  lemma VerifyKeepsAtMostOnePayment(s: Store, req: VerifyTransaction.Request, replies: VerifyTransaction.Replies)
    requires AtMostOnePayment(s)
    ensures AtMostOnePayment(VerifyTransaction.Handle(s, req, replies).store)
  {
    var r := VerifyTransaction.Handle(s, req, replies);
    if |r.store.payments| == |s.payments| + 1 {
      var p := r.store.payments[|s.payments|];
      assert r.store.payments == s.payments + [p];
      AppendCounts(s.payments, p);
    } else {
      assert r.store.payments == s.payments;
    }
  }

  /** The verifier keeps every completed order paid: it records a payment
      whenever it completes an order that lacks one. */
  lemma VerifyKeepsPaidWhenCompleted(s: Store, req: VerifyTransaction.Request, replies: VerifyTransaction.Replies)
    requires PaidWhenCompleted(s)
    ensures PaidWhenCompleted(VerifyTransaction.Handle(s, req, replies).store)
  {
    var r := VerifyTransaction.Handle(s, req, replies);
    if |r.store.payments| == |s.payments| + 1 {
      var p := r.store.payments[|s.payments|];
      assert r.store.payments == s.payments + [p];
      AppendCounts(s.payments, p);
    } else {
      assert r.store.payments == s.payments;
    }
  }

  /** Under the notification handler alone, orders are paid exactly once
      they are completed and never more than once: its completed-guard is
      what keeps a second payment out. */
  lemma IpnKeepsPaymentInvariants(s: Store, q: IpnHandler.Query, replies: IpnHandler.Replies)
    requires AtMostOnePayment(s) && PaidWhenCompleted(s) && PaidOnlyWhenCompleted(s)
    ensures var s1 := IpnHandler.Handle(s, q, replies).store;
            AtMostOnePayment(s1) && PaidWhenCompleted(s1) && PaidOnlyWhenCompleted(s1)
  {
    var r := IpnHandler.Handle(s, q, replies);
    if |r.store.payments| == |s.payments| + 1 {
      var p := r.store.payments[|s.payments|];
      assert r.store.payments == s.payments + [p];
      AppendCounts(s.payments, p);
    } else {
      assert r.store.payments == s.payments;
    }
  }

  /** Order creation keeps all three payment invariants: the new order has
      no payment and is not completed. */
  lemma CreateKeepsPaymentInvariants(s: Store, req: CreateOrder.Request, env: CreateOrder.Environment,
                                     replies: CreateOrder.Replies)
    requires forall i :: 0 <= i < |env.randomDigits| ==> IsBase36Lower(env.randomDigits[i])
    requires Consistent(s)
    requires AtMostOnePayment(s) && PaidWhenCompleted(s) && PaidOnlyWhenCompleted(s)
    ensures var s1 := CreateOrder.Handle(s, req, env, replies).store;
            AtMostOnePayment(s1) && PaidWhenCompleted(s1) && PaidOnlyWhenCompleted(s1)
  {
    var s1 := CreateOrder.Handle(s, req, env, replies).store;
    if env.newOrderId in s1.orders && env.newOrderId !in s.orders {
      PaymentCountZero(s.payments, env.newOrderId);
    }
  }

  /** No handler ever moves an order to `cancelled`. */
  lemma NoHandlerCancels(s: Store, k: string,
                         cReq: CreateOrder.Request, cEnv: CreateOrder.Environment, cReplies: CreateOrder.Replies,
                         q: IpnHandler.Query, iReplies: IpnHandler.Replies,
                         vReq: VerifyTransaction.Request, vReplies: VerifyTransaction.Replies,
                         rEnv: RegisterIpn.Environment, rReplies: RegisterIpn.Replies)
    requires forall i :: 0 <= i < |cEnv.randomDigits| ==> IsBase36Lower(cEnv.randomDigits[i])
    ensures var s1 := CreateOrder.Handle(s, cReq, cEnv, cReplies).store;
            k in s1.orders && s1.orders[k].status == Cancelled ==> k in s.orders && s.orders[k] == s1.orders[k]
    ensures var s1 := IpnHandler.Handle(s, q, iReplies).store;
            k in s1.orders && s1.orders[k].status == Cancelled ==> k in s.orders && s.orders[k] == s1.orders[k]
    ensures var s1 := VerifyTransaction.Handle(s, vReq, vReplies).store;
            k in s1.orders && s1.orders[k].status == Cancelled ==> k in s.orders && s.orders[k] == s1.orders[k]
    ensures var s1 := RegisterIpn.Handle(s, rEnv, rReplies).store;
            s1.orders == s.orders
  {
    CreateNeverCancels(s, k, cReq, cEnv, cReplies);
    IpnNeverCancels(s, k, q, iReplies);
    VerifyNeverCancels(s, k, vReq, vReplies);
  }

  lemma CreateNeverCancels(s: Store, k: string, req: CreateOrder.Request, env: CreateOrder.Environment,
                           replies: CreateOrder.Replies)
    requires forall i :: 0 <= i < |env.randomDigits| ==> IsBase36Lower(env.randomDigits[i])
    ensures var s1 := CreateOrder.Handle(s, req, env, replies).store;
            k in s1.orders && s1.orders[k].status == Cancelled ==> k in s.orders && s.orders[k] == s1.orders[k]
  {
  }

  lemma IpnNeverCancels(s: Store, k: string, q: IpnHandler.Query, replies: IpnHandler.Replies)
    ensures var s1 := IpnHandler.Handle(s, q, replies).store;
            k in s1.orders && s1.orders[k].status == Cancelled ==> k in s.orders && s.orders[k] == s1.orders[k]
  {
  }

  lemma VerifyNeverCancels(s: Store, k: string, req: VerifyTransaction.Request, replies: VerifyTransaction.Replies)
    ensures var s1 := VerifyTransaction.Handle(s, req, replies).store;
            k in s1.orders && s1.orders[k].status == Cancelled ==> k in s.orders && s.orders[k] == s1.orders[k]
  {
    var v := VerifyTransaction.Handle(s, req, replies);
    if k in v.store.orders && Some(k) == VerifyTransaction.FoundOrder(s, req) && v.response.Verified? {
      StatusMappingsAgree(replies.status);
    }
  }

  /** The verification request that supplies both identifiers. */
  function BothIds(t: string, ref: string): VerifyTransaction.Request {
    VerifyTransaction.Request(Some(t), Some(ref), false, None, None)
  }

  /** A status reply carrying only a status code. */
  function CodeOnly(code: int): StatusReply {
    StatusReply(None, Some(code), None, None, None, None)
  }

  /** A verification that reports completion pays an unpaid order once and
      keeps its merchant reference resolvable. */
  lemma VerifyPaysUnpaidOrder(s: Store, id: string, ref: string, t: string, token: string)
    requires FindByRef(s, ref) == One(id) && PaymentCount(s.payments, id) == 0
    requires ref != "" && t != "" && token != ""
    ensures var s1 := VerifyTransaction.Handle(s, BothIds(t, ref), VerifyTransaction.Replies(Some(token), CodeOnly(1))).store;
            && id in s1.orders && s1.orders[id].status == Completed
            && PaymentCount(s1.payments, id) == 1 && FindByRef(s1, ref) == One(id)
  {
    var r1 := VerifyTransaction.Handle(s, BothIds(t, ref), VerifyTransaction.Replies(Some(token), CodeOnly(1)));
    var s1 := r1.store;
    assert VerifyTransaction.FoundOrder(s, BothIds(t, ref)) == Some(id);
    assert r1.response.Verified? && r1.response.status == "completed";
    assert |s1.payments| == |s.payments| + 1;
    assert s1.payments == s.payments + [s1.payments[|s.payments|]];
    PaymentCountAppend(s.payments, s1.payments[|s.payments|], id);
    assert OrdersWithRef(s1.orders, ref) == OrdersWithRef(s.orders, ref);
  }

  /** A verification that reports failure moves the order to `failed`,
      whatever its status was, and records nothing. */
  lemma VerifyFailsOrder(s: Store, id: string, ref: string, t: string, token: string)
    requires FindByRef(s, ref) == One(id)
    requires ref != "" && t != "" && token != ""
    ensures var s1 := VerifyTransaction.Handle(s, BothIds(t, ref), VerifyTransaction.Replies(Some(token), CodeOnly(2))).store;
            && id in s1.orders && s1.orders[id].status == Failed
            && s1.payments == s.payments && FindByRef(s1, ref) == One(id)
  {
    var r1 := VerifyTransaction.Handle(s, BothIds(t, ref), VerifyTransaction.Replies(Some(token), CodeOnly(2)));
    var s1 := r1.store;
    assert VerifyTransaction.FoundOrder(s, BothIds(t, ref)) == Some(id);
    assert r1.response.Verified? && r1.response.status == "failed";
    assert OrdersWithRef(s1.orders, ref) == OrdersWithRef(s.orders, ref);
  }

  /** The verifier has no completed-guard: when the gateway later reports a
      completed transaction as failed, a verification moves the order back to
      `failed`, and the next completed callback then records a second
      payment for the same order. */
  lemma VerifyThenCallbackCanPayTwice(s: Store, id: string, ref: string, t: string, token: string)
    requires FindByRef(s, ref) == One(id) && PaymentCount(s.payments, id) == 0
    requires ref != "" && t != "" && token != ""
    ensures var s1 := VerifyTransaction.Handle(s, BothIds(t, ref), VerifyTransaction.Replies(Some(token), CodeOnly(1))).store;
            var s2 := VerifyTransaction.Handle(s1, BothIds(t, ref), VerifyTransaction.Replies(Some(token), CodeOnly(2))).store;
            var s3 := IpnHandler.Handle(s2, IpnHandler.Query(Some(t), Some(ref), None),
                                        IpnHandler.Replies(Some(token), CodeOnly(1))).store;
            && PaymentCount(s1.payments, id) == 1 && PaymentCount(s2.payments, id) == 1
            && s3.orders[id].status == Completed && PaymentCount(s3.payments, id) == 2
  {
    VerifyPaysUnpaidOrder(s, id, ref, t, token);
    var s1 := VerifyTransaction.Handle(s, BothIds(t, ref), VerifyTransaction.Replies(Some(token), CodeOnly(1))).store;
    VerifyFailsOrder(s1, id, ref, t, token);
    var s2 := VerifyTransaction.Handle(s1, BothIds(t, ref), VerifyTransaction.Replies(Some(token), CodeOnly(2))).store;
    var q := IpnHandler.Query(Some(t), Some(ref), None);
    assert IpnHandler.Actionable(s2, q);
    DuplicateCallbackRecordsOnePayment(s2, q, IpnHandler.Replies(Some(token), CodeOnly(1)),
                                       IpnHandler.Replies(Some(token), CodeOnly(1)));
  }

  /** Given only a tracking id, the verifier looks up no order and writes
      nothing, whatever the gateway reports. */
  lemma TrackingIdAloneWritesNothing(s: Store, req: VerifyTransaction.Request, replies: VerifyTransaction.Replies)
    requires !Present(VerifyTransaction.SuppliedReference(req))
    ensures VerifyTransaction.Handle(s, req, replies).store == s
  {
  }

  /** The foreign keys survive every handler. */
  lemma HandlersKeepConsistent(s: Store,
                               cReq: CreateOrder.Request, cEnv: CreateOrder.Environment, cReplies: CreateOrder.Replies,
                               q: IpnHandler.Query, iReplies: IpnHandler.Replies,
                               vReq: VerifyTransaction.Request, vReplies: VerifyTransaction.Replies,
                               rEnv: RegisterIpn.Environment, rReplies: RegisterIpn.Replies)
    requires forall i :: 0 <= i < |cEnv.randomDigits| ==> IsBase36Lower(cEnv.randomDigits[i])
    requires Consistent(s)
    ensures Consistent(CreateOrder.Handle(s, cReq, cEnv, cReplies).store)
    ensures Consistent(IpnHandler.Handle(s, q, iReplies).store)
    ensures Consistent(VerifyTransaction.Handle(s, vReq, vReplies).store)
    ensures Consistent(RegisterIpn.Handle(s, rEnv, rReplies).store)
  {
    CreateOrder.HandleKeepsConsistent(s, cReq, cEnv, cReplies);
    IpnHandler.HandleKeepsConsistent(s, q, iReplies);
    VerifyTransaction.HandleKeepsConsistent(s, vReq, vReplies);
    RegisterIpn.HandleKeepsConsistent(s, rEnv, rReplies);
  }
}

=== FILE: register_ipn.dfy ===
/** The `register-ipn` function: registers the notification handler's URL
    with the gateway once and keeps the returned notification id in the
    config table. */
module RegisterIpn {
  import opened Common
  import opened Pesapal
  import opened Schema

  /** The project's base URL and whether the config upsert fails. */
  datatype Environment = Environment(supabaseUrl: string, upsertFails: bool)

  /** The gateway's replies: the auth token and the registration reply. */
  datatype Replies = Replies(token: Option<string>, register: RegisterReply)

  datatype Response =
    | Registered(notificationId: string, message: string)
    | Error(message: string)
  {
    function Code(): int {
      if Registered? then 200 else 500
    }
  }

  datatype Outcome = Outcome(store: Store, response: Response, calls: seq<GatewayCall>)

  const AlreadyRegistered := "IPN already registered"
  const RegisteredNow := "IPN registered successfully"
  const TokenFailed := "Failed to get auth token"
  const RegisterFailed := "Failed to register IPN URL"
  const StoreFailed := "Failed to store notification_id"

  /** The URL registered for notifications: the notification handler. */
  function IpnUrl(supabaseUrl: string): string {
    supabaseUrl + "/functions/v1/pesapal-ipn-handler"
  }

  /** The handler. */
  function Handle(s: Store, env: Environment, replies: Replies): (r: Outcome)
    // A stored id is returned as it is, with no request and no write.
    ensures HasNotificationId(s) ==>
              r == Outcome(s, Registered(s.config[NotificationIdKey], AlreadyRegistered), [])
    // Only the config entry for the notification id can change.
    ensures r.store.albums == s.albums && r.store.orders == s.orders
    ensures r.store.payments == s.payments && r.store.accessLogs == s.accessLogs
    ensures forall k :: k in s.config && k != NotificationIdKey ==> k in r.store.config && r.store.config[k] == s.config[k]
    ensures r.store.config.Keys <= s.config.Keys + {NotificationIdKey}
    // Any error leaves the store as it was.
    ensures r.response.Error? ==> r.store == s
    ensures !HasNotificationId(s) && !Present(replies.token) ==>
              r == Outcome(s, Error(TokenFailed), [RequestToken])
    ensures !HasNotificationId(s) && Present(replies.token)
            && (replies.register.error.Some? || !Present(replies.register.ipnId)) ==>
              r == Outcome(s, Error(FaultMessage(replies.register.error, RegisterFailed)),
                           [RequestToken, RegisterIpn(IpnUrl(env.supabaseUrl), "GET")])
    // A good registration reply is stored, unless the upsert fails.
    ensures !HasNotificationId(s) && Present(replies.token)
            && replies.register.error.None? && Present(replies.register.ipnId) ==>
              && (env.upsertFails ==> r.response == Error(StoreFailed))
              && (!env.upsertFails ==> r.response.Registered?)
    // On success the returned id is the one now stored, and it is the id the
    // gateway issued for the notification handler's URL.
    ensures r.response.Registered? ==>
              && HasNotificationId(r.store)
              && r.store.config[NotificationIdKey] == r.response.notificationId
    ensures r.response.Registered? && !HasNotificationId(s) ==>
              && r.calls == [RequestToken, RegisterIpn(IpnUrl(env.supabaseUrl), "GET")]
              && Some(r.response.notificationId) == replies.register.ipnId
              && r.response.message == RegisteredNow
  {
    if HasNotificationId(s) then
      Outcome(s, Registered(s.config[NotificationIdKey], AlreadyRegistered), [])
    else if !Present(replies.token) then
      Outcome(s, Error(TokenFailed), [RequestToken])
    else
      var calls := [RequestToken, RegisterIpn(IpnUrl(env.supabaseUrl), "GET")];
      var reply := replies.register;
      if reply.error.Some? || !Present(reply.ipnId) then
        Outcome(s, Error(FaultMessage(reply.error, RegisterFailed)), calls)
      else if env.upsertFails then
        Outcome(s, Error(StoreFailed), calls)
      else
        Outcome(s.(config := s.config[NotificationIdKey := reply.ipnId.value]),
                Registered(reply.ipnId.value, RegisteredNow), calls)
  }

  /** Registration is idempotent: once a call has succeeded, any later call,
      whatever the gateway would reply, returns the same id without
      contacting the gateway or writing. */
  lemma RegistrationIdempotent(s: Store, env: Environment, replies: Replies,
                               env2: Environment, replies2: Replies)
    requires Handle(s, env, replies).response.Registered?
    ensures var s1 := Handle(s, env, replies).store;
            Handle(s1, env2, replies2)
              == Outcome(s1, Registered(Handle(s, env, replies).response.notificationId, AlreadyRegistered), [])
  {
  }

  /** The handler keeps the schema's foreign keys intact. */
  lemma HandleKeepsConsistent(s: Store, env: Environment, replies: Replies)
    requires Consistent(s)
    ensures Consistent(Handle(s, env, replies).store)
  {
  }
}

=== FILE: schema.dfy ===
/** The record store shared by the payment handlers: the rows of the
    `albums`, `orders`, `payments`, `pesapal_config` and
    `premium_access_logs` tables, the two enumerations of the schema, and
    the row-level operations the handlers perform (insert with the
    database's key and foreign-key checks, update by id, lookup by column). */
module Schema {
  import opened Common
  import opened Pesapal

  /** The `order_status` enumeration. */
  datatype OrderStatus = Pending | Completed | Failed | Cancelled

  /** The `app_role` enumeration. */
  datatype AppRole = Admin | User

  /** The enumerations' values in the order the schema lists them. */
  const OrderStatusNames: seq<string> := ["pending", "completed", "failed", "cancelled"]
  const AllOrderStatuses: seq<OrderStatus> := [Pending, Completed, Failed, Cancelled]
  const AppRoleNames: seq<string> := ["admin", "user"]
  const AllAppRoles: seq<AppRole> := [Admin, User]

  function StatusName(s: OrderStatus): string {
    match s
    case Pending => "pending"
    case Completed => "completed"
    case Failed => "failed"
    case Cancelled => "cancelled"
  }

  /** Reads a stored status value; only the four enumerated names are valid. */
  function ParseStatus(n: string): (r: Option<OrderStatus>)
    ensures r.Some? <==> n in OrderStatusNames
    ensures r.Some? ==> StatusName(r.value) == n
  {
    if n == "pending" then Some(Pending)
    else if n == "completed" then Some(Completed)
    else if n == "failed" then Some(Failed)
    else if n == "cancelled" then Some(Cancelled)
    else None
  }

  function RoleName(r: AppRole): string {
    match r
    case Admin => "admin"
    case User => "user"
  }

  function ParseRole(n: string): (r: Option<AppRole>)
    ensures r.Some? <==> n in AppRoleNames
    ensures r.Some? ==> RoleName(r.value) == n
  {
    if n == "admin" then Some(Admin) else if n == "user" then Some(User) else None
  }

  /** The order statuses are exactly the four enumerated names, listed in
      the schema's order, and the names identify the statuses. */
  lemma OrderStatusEnumeration()
    ensures |AllOrderStatuses| == |OrderStatusNames| == 4
    ensures forall i :: 0 <= i < 4 ==> StatusName(AllOrderStatuses[i]) == OrderStatusNames[i]
    ensures forall s: OrderStatus :: s in AllOrderStatuses && ParseStatus(StatusName(s)) == Some(s)
    ensures forall i, j :: 0 <= i < j < 4 ==> OrderStatusNames[i] != OrderStatusNames[j]
  {
    forall s: OrderStatus
      ensures s in AllOrderStatuses && ParseStatus(StatusName(s)) == Some(s)
    {
      match s
      case Pending => assert AllOrderStatuses[0] == s;
      case Completed => assert AllOrderStatuses[1] == s;
      case Failed => assert AllOrderStatuses[2] == s;
      case Cancelled => assert AllOrderStatuses[3] == s;
    }
  }

  /** The application roles are exactly `admin` and `user`, in that order. */
  lemma AppRoleEnumeration()
    ensures |AllAppRoles| == |AppRoleNames| == 2
    ensures forall i :: 0 <= i < 2 ==> RoleName(AllAppRoles[i]) == AppRoleNames[i]
    ensures forall r: AppRole :: r in AllAppRoles && ParseRole(RoleName(r)) == Some(r)
    ensures AppRoleNames[0] != AppRoleNames[1]
  {
    forall r: AppRole
      ensures r in AllAppRoles && ParseRole(RoleName(r)) == Some(r)
    {
      match r
      case Admin => assert AllAppRoles[0] == r;
      case User => assert AllAppRoles[1] == r;
    }
  }

  /** A row of `albums` (timestamps left out). */
  datatype Album = Album(
    title: string,
    description: Option<string>,
    price: int,
    currency: string,
    coverUrl: Option<string>,
    isActive: bool)

  /** A row of `orders`; the row's `id` is its key in `Store.orders`. */
  datatype Order = Order(
    userId: Option<string>,
    albumId: string,
    merchantReference: string,
    notificationId: Option<string>,
    amount: int,
    currency: string,
    status: OrderStatus,
    customerEmail: string,
    customerFirstName: Option<string>,
    customerLastName: Option<string>,
    callbackUrl: Option<string>,
    trackingId: Option<string>)

  /** The insert shape of `orders`: four columns are required, the others
      may be omitted (`None`). */
  datatype OrderInsert = OrderInsert(
    albumId: string,
    amount: int,
    customerEmail: string,
    merchantReference: string,
    userId: Option<string>,
    notificationId: Option<string>,
    currency: Option<string>,
    status: Option<OrderStatus>,
    customerFirstName: Option<string>,
    customerLastName: Option<string>,
    callbackUrl: Option<string>,
    trackingId: Option<string>)

  /** Column defaults the database applies to omitted non-null columns;
      they live in the database, not in the application, so they are inputs. */
  datatype ColumnDefaults = ColumnDefaults(currency: string, status: OrderStatus)

  /** A row of `payments` (its generated `id` and `confirmed_at` left out). */
  datatype Payment = Payment(
    orderId: string,
    paymentStatus: string,
    paymentMethod: Option<string>,
    transactionId: Option<string>,
    amount: Option<int>,
    currency: Option<string>,
    rawResponse: Option<StatusReply>)

  /** A row of `premium_access_logs`. */
  datatype AccessLog = AccessLog(userEmail: string, albumId: string, accessedAt: string)

  /** The whole record store. `config` is `pesapal_config`, a string value
      per string key. */
  datatype Store = Store(
    albums: map<string, Album>,
    orders: map<string, Order>,
    payments: seq<Payment>,
    config: map<string, string>,
    accessLogs: seq<AccessLog>)

  /** The config key under which the registered notification id is kept. */
  const NotificationIdKey := "notification_id"

  /** Whether the config holds a usable (non-empty) notification id. */
  predicate HasNotificationId(s: Store) {
    NotificationIdKey in s.config && s.config[NotificationIdKey] != ""
  }

  /** The foreign keys of the schema hold: every order and every access
      log row names a stored album, and every payment names a stored order. */
  ghost predicate Consistent(s: Store) {
    && (forall id :: id in s.orders ==> s.orders[id].albumId in s.albums)
    && (forall i :: 0 <= i < |s.payments| ==> s.payments[i].orderId in s.orders)
    && (forall i :: 0 <= i < |s.accessLogs| ==> s.accessLogs[i].albumId in s.albums)
  }

  /** The row an insert produces: required columns as given, omitted
      optional columns null or defaulted. */
  function RowOf(ins: OrderInsert, d: ColumnDefaults): (o: Order)
    ensures o.albumId == ins.albumId && o.amount == ins.amount
    ensures o.customerEmail == ins.customerEmail && o.merchantReference == ins.merchantReference
    ensures o.status == ins.status.GetOr(d.status) && o.currency == ins.currency.GetOr(d.currency)
    ensures o.userId == ins.userId && o.notificationId == ins.notificationId
    ensures o.customerFirstName == ins.customerFirstName && o.customerLastName == ins.customerLastName
    ensures o.callbackUrl == ins.callbackUrl && o.trackingId == ins.trackingId
  {
    Order(ins.userId, ins.albumId, ins.merchantReference, ins.notificationId, ins.amount,
          ins.currency.GetOr(d.currency), ins.status.GetOr(d.status), ins.customerEmail,
          ins.customerFirstName, ins.customerLastName, ins.callbackUrl, ins.trackingId)
  }

  /** The insert that supplies every column of a row. */
  function FullInsert(o: Order): OrderInsert {
    OrderInsert(o.albumId, o.amount, o.customerEmail, o.merchantReference, o.userId,
                o.notificationId, Some(o.currency), Some(o.status), o.customerFirstName,
                o.customerLastName, o.callbackUrl, o.trackingId)
  }

  /** Every row can be produced by an insert, whatever the defaults: the
      optional columns only fill in what an insert leaves out. */
  lemma EveryRowIsInsertable(o: Order, d: ColumnDefaults)
    ensures RowOf(FullInsert(o), d) == o
  {
  }

  /** Inserts an order under key `id`. The database refuses a key already in
      use and an `album_id` that names no album. */
  function InsertOrder(s: Store, id: string, ins: OrderInsert, d: ColumnDefaults): (r: Option<Store>)
    ensures r.Some? <==> id !in s.orders && ins.albumId in s.albums
    ensures r.Some? ==> r.value.orders.Keys == s.orders.Keys + {id}
    ensures r.Some? ==> r.value.orders[id] == RowOf(ins, d)
    ensures r.Some? ==> forall k :: k in s.orders ==> r.value.orders[k] == s.orders[k]
    ensures r.Some? ==> r.value.payments == s.payments && r.value.albums == s.albums
    ensures r.Some? ==> r.value.config == s.config && r.value.accessLogs == s.accessLogs
  {
    if id in s.orders || ins.albumId !in s.albums then None
    else Some(s.(orders := s.orders[id := RowOf(ins, d)]))
  }

  /** An update of some columns of an order. */
  datatype OrderPatch = OrderPatch(status: Option<OrderStatus>, trackingId: Option<Option<string>>)

  function Patched(o: Order, p: OrderPatch): Order {
    o.(status := p.status.GetOr(o.status), trackingId := p.trackingId.GetOr(o.trackingId))
  }

  /** `update(p).eq('id', id)`: changes the one order with that key, if any. */
  function UpdateOrder(s: Store, id: string, p: OrderPatch): (r: Store)
    ensures r.orders.Keys == s.orders.Keys
    ensures id in s.orders ==> r.orders[id] == Patched(s.orders[id], p)
    ensures forall k :: k in s.orders && k != id ==> r.orders[k] == s.orders[k]
    ensures r.albums == s.albums && r.payments == s.payments
    ensures r.config == s.config && r.accessLogs == s.accessLogs
  {
    if id in s.orders then s.(orders := s.orders[id := Patched(s.orders[id], p)]) else s
  }

  /** Appends a payment; the database refuses an `order_id` that names no order. */
  function InsertPayment(s: Store, p: Payment): (r: Option<Store>)
    ensures r.Some? <==> p.orderId in s.orders
    ensures r.Some? ==> r.value == s.(payments := s.payments + [p])
  {
    if p.orderId in s.orders then Some(s.(payments := s.payments + [p])) else None
  }

  /** Inserting an access log row; the album foreign key is checked. */
  function InsertAccessLog(s: Store, log: AccessLog): (r: Option<Store>)
    ensures r.Some? <==> log.albumId in s.albums
    ensures r.Some? ==> r.value == s.(accessLogs := s.accessLogs + [log])
  {
    if log.albumId in s.albums then Some(s.(accessLogs := s.accessLogs + [log])) else None
  }

  /** Keys of the orders whose `merchant_reference` is `ref`. */
  function OrdersWithRef(orders: map<string, Order>, ref: string): set<string> {
    set id | id in orders && orders[id].merchantReference == ref
  }

  /** `select('*').eq('merchant_reference', ref).maybeSingle()` on `orders`. */
  function FindByRef(s: Store, ref: string): (r: Lookup<string>)
    ensures r.One? ==> r.row in s.orders && s.orders[r.row].merchantReference == ref
    ensures r.NoRow? <==> forall id :: id in s.orders ==> s.orders[id].merchantReference != ref
    ensures r.One? ==> forall id :: id in s.orders && s.orders[id].merchantReference == ref ==> id == r.row
    ensures r.One? <==> |OrdersWithRef(s.orders, ref)| == 1
    ensures r.Many? <==> |OrdersWithRef(s.orders, ref)| > 1
  {
    var r := MaybeSingle(OrdersWithRef(s.orders, ref));
    assert forall id :: id in s.orders && s.orders[id].merchantReference == ref
                        ==> id in OrdersWithRef(s.orders, ref);
    r
  }

  /** Keys of the completed orders placed under `email` for `albumId`. */
  function CompletedOrdersFor(orders: map<string, Order>, email: string, albumId: string): set<string> {
    set id | id in orders && orders[id].customerEmail == email && orders[id].albumId == albumId
                          && orders[id].status == Completed
  }

  /** `.eq('customer_email', email).eq('album_id', albumId).eq('status',
      'completed').maybeSingle()` on `orders`. */
  function FindPurchase(s: Store, email: string, albumId: string): (r: Lookup<string>)
    ensures r.One? ==> r.row in s.orders && s.orders[r.row].customerEmail == email
                       && s.orders[r.row].albumId == albumId && s.orders[r.row].status == Completed
    ensures r.NoRow? <==> forall id :: (id in s.orders && s.orders[id].customerEmail == email
                                        && s.orders[id].albumId == albumId) ==> s.orders[id].status != Completed
    // Several completed orders are maybeSingle's error, not a purchase.
    ensures r.One? <==> |CompletedOrdersFor(s.orders, email, albumId)| == 1
  {
    var r := MaybeSingle(CompletedOrdersFor(s.orders, email, albumId));
    assert forall id :: (id in s.orders && s.orders[id].customerEmail == email && s.orders[id].albumId == albumId
                         && s.orders[id].status == Completed) ==> id in CompletedOrdersFor(s.orders, email, albumId);
    r
  }

  /** Number of payments recorded for one order. */
  function PaymentCount(ps: seq<Payment>, orderId: string): nat
    decreases |ps|
  {
    if |ps| == 0 then 0
    else PaymentCount(ps[..|ps| - 1], orderId) + (if ps[|ps| - 1].orderId == orderId then 1 else 0)
  }

  /** Appending a payment adds one to its own order's count and leaves
      every other order's count alone. */
  lemma PaymentCountAppend(ps: seq<Payment>, p: Payment, orderId: string)
    ensures PaymentCount(ps + [p], orderId)
            == PaymentCount(ps, orderId) + (if p.orderId == orderId then 1 else 0)
  {
    assert (ps + [p])[..|ps|] == ps;
  }

  /** An order has no payments iff no payment row names it. */
  lemma {:induction false} PaymentCountZero(ps: seq<Payment>, orderId: string)
    ensures PaymentCount(ps, orderId) == 0 <==> forall i :: 0 <= i < |ps| ==> ps[i].orderId != orderId
    decreases |ps|
  {
    if |ps| > 0 {
      PaymentCountZero(ps[..|ps| - 1], orderId);
      assert forall i :: 0 <= i < |ps| - 1 ==> ps[..|ps| - 1][i] == ps[i];
    }
  }

  /** `select('id').eq('order_id', id).maybeSingle()` on `payments` yields a
      row only when exactly one payment names the order. */
  predicate HasSinglePayment(s: Store, orderId: string) {
    PaymentCount(s.payments, orderId) == 1
  }

  /** Inserting an order or a payment through these operations, or updating
      an order, keeps the foreign keys intact. */
  lemma InsertOrderKeepsConsistent(s: Store, id: string, ins: OrderInsert, d: ColumnDefaults)
    requires Consistent(s)
    requires InsertOrder(s, id, ins, d).Some?
    ensures Consistent(InsertOrder(s, id, ins, d).value)
  {
  }

  lemma UpdateOrderKeepsConsistent(s: Store, id: string, p: OrderPatch)
    requires Consistent(s)
    ensures Consistent(UpdateOrder(s, id, p))
  {
  }

  lemma InsertPaymentKeepsConsistent(s: Store, p: Payment)
    requires Consistent(s)
    requires InsertPayment(s, p).Some?
    ensures Consistent(InsertPayment(s, p).value)
  {
  }
}

=== FILE: text.dfy ===
/** The string operations the handlers rely on: case conversion of ASCII
    letters and the decimal rendering of integers used when numbers are
    interpolated into template strings. */
module Text {
  import opened Common

  predicate IsDigit(c: char) {
    '0' <= c <= '9'
  }

  predicate AllDigits(s: string) {
    forall i :: 0 <= i < |s| ==> IsDigit(s[i])
  }

  /** A lower-case base-36 digit, as produced by `Number.toString(36)`. */
  predicate IsBase36Lower(c: char) {
    IsDigit(c) || 'a' <= c <= 'z'
  }

  /** An upper-case base-36 digit. */
  predicate IsBase36Upper(c: char) {
    IsDigit(c) || 'A' <= c <= 'Z'
  }

  function LowerChar(c: char): char {
    if 'A' <= c <= 'Z' then (c as int + 32) as char else c
  }

  function UpperChar(c: char): char {
    if 'a' <= c <= 'z' then (c as int - 32) as char else c
  }

  /** `String.prototype.toLowerCase` restricted to ASCII letters. */
  function Lower(s: string): (r: string)
    ensures |r| == |s|
    ensures forall i :: 0 <= i < |r| ==> !('A' <= r[i] <= 'Z')
    ensures forall i :: 0 <= i < |s| && !('A' <= s[i] <= 'Z') ==> r[i] == s[i]
    ensures forall i :: 0 <= i < |s| && 'A' <= s[i] <= 'Z' ==> r[i] == (s[i] as int + 32) as char
  {
    seq(|s|, i requires 0 <= i < |s| => LowerChar(s[i]))
  }

  /** `String.prototype.toUpperCase` restricted to ASCII letters. */
  function Upper(s: string): (r: string)
    ensures |r| == |s|
    ensures forall i :: 0 <= i < |r| ==> !('a' <= r[i] <= 'z')
    ensures forall i :: 0 <= i < |s| && !('a' <= s[i] <= 'z') ==> r[i] == s[i]
    ensures forall i :: 0 <= i < |s| && 'a' <= s[i] <= 'z' ==> r[i] == (s[i] as int - 32) as char
  {
    seq(|s|, i requires 0 <= i < |s| => UpperChar(s[i]))
  }

  /** Upper-casing turns lower-case base-36 digits into upper-case ones. */
  lemma UpperOfBase36(s: string)
    requires forall i :: 0 <= i < |s| ==> IsBase36Lower(s[i])
    ensures forall i :: 0 <= i < |Upper(s)| ==> IsBase36Upper(Upper(s)[i])
  {
  }

  /** Lower-casing is idempotent, so comparing a lower-cased description
      against a lower-case word ignores the case of the description. */
  lemma LowerIdempotent(s: string)
    ensures Lower(Lower(s)) == Lower(s)
  {
  }

  function DigitChar(d: nat): (c: char)
    requires d < 10
    ensures IsDigit(c)
  {
    "0123456789"[d]
  }

  function DigitValue(c: char): (d: nat)
    requires IsDigit(c)
    ensures d < 10
  {
    (c as int) - ('0' as int)
  }

  /** The decimal rendering of a natural number, as JavaScript prints an
      integral `number` (no sign, no leading zeros). */
  function Decimal(n: nat): (r: string)
    ensures |r| > 0
    ensures AllDigits(r)
    ensures r[0] == '0' ==> n == 0
    decreases n
  {
    if n < 10 then [DigitChar(n)] else Decimal(n / 10) + [DigitChar(n % 10)]
  }

  /** Reads a string of decimal digits back as a number. */
  function ParseDecimal(s: string): (n: nat)
    requires AllDigits(s)
    decreases |s|
  {
    if |s| == 0 then 0 else 10 * ParseDecimal(s[..|s| - 1]) + DigitValue(s[|s| - 1])
  }

  /** Rendering a number in decimal loses nothing: it parses back to itself. */
  lemma {:induction false} DecimalRoundTrip(n: nat)
    ensures ParseDecimal(Decimal(n)) == n
    decreases n
  {
    if n >= 10 {
      var d := Decimal(n / 10);
      var r := d + [DigitChar(n % 10)];
      assert r[..|r| - 1] == d;
      DecimalRoundTrip(n / 10);
    }
  }

  /** Distinct numbers have distinct renderings. */
  lemma DecimalInjective(m: nat, n: nat)
    requires Decimal(m) == Decimal(n)
    ensures m == n
  {
    DecimalRoundTrip(m);
    DecimalRoundTrip(n);
  }

  /** The rendering of an integer, with a leading `-` when it is negative. */
  function IntString(i: int): (r: string)
    ensures |r| > 0
    ensures (r[0] == '-') <==> i < 0
  {
    if i < 0 then "-" + Decimal(-i) else Decimal(i)
  }

  /** Reads back what `IntString` renders. */
  function ParseInt(s: string): (r: Option<int>)
    ensures r.Some? && |s| > 0 && s[0] != '-' ==> r.value >= 0
  {
    if |s| > 0 && s[0] == '-' then
      if AllDigits(s[1..]) then Some(-(ParseDecimal(s[1..]) as int)) else None
    else if AllDigits(s) then Some(ParseDecimal(s))
    else None
  }

  /** Rendering an integer loses nothing, negative ones included. */
  lemma IntRoundTrip(i: int)
    ensures ParseInt(IntString(i)) == Some(i)
  {
    if i < 0 {
      var d := Decimal(-i);
      assert IntString(i) == "-" + d;
      assert ("-" + d)[1..] == d;
      DecimalRoundTrip(-i);
      assert ParseInt("-" + d) == Some(-(ParseDecimal(d) as int));
    } else {
      var d := Decimal(i);
      assert IntString(i) == d && d[0] != '-';
      DecimalRoundTrip(i);
    }
  }

  /** Position of the first occurrence of `c` in `s`, or `|s|` when it does
      not occur. */
  function FirstIndexOf(s: string, c: char): (k: nat)
    ensures k <= |s|
    ensures forall i :: 0 <= i < k ==> s[i] != c
    ensures k < |s| ==> s[k] == c
    decreases |s|
  {
    if |s| == 0 then 0 else if s[0] == c then 0 else 1 + FirstIndexOf(s[1..], c)
  }
}

=== FILE: verify_transaction.dfy ===
/** The `verify-transaction` function: the front end's polling counterpart
    of the notification handler. It resolves the tracking id (directly or
    through the order's merchant reference), asks the gateway for the
    transaction's status, overwrites the order's status, and records a
    payment for a completed transaction unless the order already has one. */
module VerifyTransaction {
  import opened Common
  import opened Text
  import opened Pesapal
  import opened Schema

  /** The identifiers from the query string and, for POST, the JSON body. */
  datatype Request = Request(
    queryTrackingId: Option<string>,
    queryMerchantReference: Option<string>,
    isPost: bool,
    bodyTrackingId: Option<string>,
    bodyMerchantReference: Option<string>)

  datatype Replies = Replies(token: Option<string>, status: StatusReply)

  datatype Response =
    | Verified(
        status: string,
        trackingId: string,
        merchantReference: Option<string>,
        paymentMethod: Option<string>,
        confirmationCode: Option<string>,
        rawStatus: StatusReply)
    | Error(message: string)
  {
    function Code(): int {
      if Verified? then 200 else 500
    }
  }

  datatype Outcome = Outcome(store: Store, response: Response, calls: seq<GatewayCall>)

  const MissingIds := "Either orderTrackingId or merchantReference is required"
  const TrackingNotFound := "Order tracking ID not found"
  const TokenFailed := "Failed to get Pesapal auth token"

  /** The tracking id the caller supplied (query first, then body). */
  function SuppliedTrackingId(req: Request): (r: Option<string>)
    ensures !req.isPost ==> r == req.queryTrackingId
    ensures req.isPost && Present(req.queryTrackingId) ==> r == req.queryTrackingId
    ensures req.isPost && !Present(req.queryTrackingId) ==> r == req.bodyTrackingId
  {
    if req.isPost then Or(req.queryTrackingId, req.bodyTrackingId) else req.queryTrackingId
  }

  /** The merchant reference the caller supplied (query first, then body). */
  function SuppliedReference(req: Request): (r: Option<string>)
    ensures !req.isPost ==> r == req.queryMerchantReference
    ensures req.isPost && Present(req.queryMerchantReference) ==> r == req.queryMerchantReference
    ensures req.isPost && !Present(req.queryMerchantReference) ==> r == req.bodyMerchantReference
  {
    if req.isPost then Or(req.queryMerchantReference, req.bodyMerchantReference) else req.queryMerchantReference
  }

  /** The order found by merchant reference, if the reference is supplied and
      names exactly one order (several matches read as none). */
  function FoundOrder(s: Store, req: Request): (r: Option<string>)
    ensures r.Some? ==> r.value in s.orders && Present(SuppliedReference(req))
                        && s.orders[r.value].merchantReference == SuppliedReference(req).value
    ensures r.Some? <==> Present(SuppliedReference(req))
                         && |OrdersWithRef(s.orders, SuppliedReference(req).value)| == 1
  {
    var ref := SuppliedReference(req);
    if Present(ref) && FindByRef(s, ref.value).One? then Some(FindByRef(s, ref.value).row) else None
  }

  /** The tracking id used: the supplied one, else the found order's. */
  function ResolvedTrackingId(s: Store, req: Request): (r: Option<string>)
    ensures Present(SuppliedTrackingId(req)) ==> r == SuppliedTrackingId(req)
    ensures !Present(SuppliedTrackingId(req)) && Present(r) ==>
              FoundOrder(s, req).Some? && r == s.orders[FoundOrder(s, req).value].trackingId
    ensures !Present(SuppliedTrackingId(req)) && FoundOrder(s, req).Some? ==>
              r == s.orders[FoundOrder(s, req).value].trackingId
    ensures !Present(SuppliedTrackingId(req)) && FoundOrder(s, req).None? ==> r == None
  {
    var found := FoundOrder(s, req);
    Or(SuppliedTrackingId(req), if found.Some? then s.orders[found.value].trackingId else None)
  }

  /** The status word this handler derives from the gateway's reply. */
  function VerifiedStatus(reply: StatusReply): (w: string)
    ensures w in ["pending", "completed", "failed"]
  {
    var description := if reply.description.Some? then Some(Lower(reply.description.value)) else None;
    if description == Some("completed") || reply.statusCode == Some(1) then "completed"
    else if description == Some("failed") || reply.statusCode == Some(2) then "failed"
    else "pending"
  }

  /** The payment recorded for a completed transaction of order `id`. */
  function PaymentFor(id: string, o: Order, reply: StatusReply, trackingId: string): (p: Payment)
    ensures p.orderId == id && p.paymentStatus == "completed" && p.rawResponse == Some(reply)
    // `payment_method || null`
    ensures p.paymentMethod.Some? <==> Present(reply.paymentMethod)
    ensures Present(reply.paymentMethod) ==> p.paymentMethod == reply.paymentMethod
    // `confirmation_code || orderTrackingId`
    ensures Present(reply.confirmationCode) ==> p.transactionId == reply.confirmationCode
    ensures !Present(reply.confirmationCode) ==> p.transactionId == Some(trackingId)
    // `amount || order.amount` and `currency || order.currency`
    ensures p.amount == Some(AmountOr(reply.amount, o.amount))
    ensures Present(reply.currency) ==> p.currency == reply.currency
    ensures !Present(reply.currency) ==> p.currency == Some(o.currency)
  {
    Payment(id, "completed", OrNull(reply.paymentMethod),
            Some(if Present(reply.confirmationCode) then reply.confirmationCode.value else trackingId),
            Some(AmountOr(reply.amount, o.amount)),
            Some(if Present(reply.currency) then reply.currency.value else o.currency),
            Some(reply))
  }

  /** The handler. */
  function Handle(s: Store, req: Request, replies: Replies): (r: Outcome)
    // Without any identifier, nothing is read, requested or written.
    ensures !Present(SuppliedTrackingId(req)) && !Present(SuppliedReference(req))
            ==> r == Outcome(s, Error(MissingIds), [])
    // An unresolvable tracking id is an error before the gateway is asked.
    ensures (Present(SuppliedTrackingId(req)) || Present(SuppliedReference(req)))
            && !Present(ResolvedTrackingId(s, req))
            ==> r == Outcome(s, Error(TrackingNotFound), [])
    // Once the tracking id resolves, the call succeeds exactly when the
    // gateway issues a token; without one nothing is written.
    ensures Present(ResolvedTrackingId(s, req)) ==> (Present(replies.token) <==> r.response.Verified?)
    ensures Present(ResolvedTrackingId(s, req)) && !Present(replies.token)
            ==> r == Outcome(s, Error(TokenFailed), [RequestToken])
    // Without a usable merchant reference no order is found and nothing is written.
    ensures FoundOrder(s, req).None? ==> r.store == s
    ensures r.response.Error? ==> r.store == s
    // Only the found order can change; other tables are untouched.
    ensures r.store.orders.Keys == s.orders.Keys
    ensures forall k :: k in s.orders && Some(k) != FoundOrder(s, req) ==> r.store.orders[k] == s.orders[k]
    ensures r.store.albums == s.albums && r.store.config == s.config && r.store.accessLogs == s.accessLogs
    ensures |s.payments| <= |r.store.payments| <= |s.payments| + 1
    ensures r.store.payments[..|s.payments|] == s.payments
    // A successful call reports the mapped status and overwrites the found
    // order's status, whatever it was; a payment is added only for a
    // completed status and only when the order does not have exactly one.
    ensures r.response.Verified? ==>
              && Present(replies.token) && Present(ResolvedTrackingId(s, req))
              && r.calls == [RequestToken, GetTransactionStatus(ResolvedTrackingId(s, req).value)]
              && r.response.status == VerifiedStatus(replies.status)
              && r.response.trackingId == ResolvedTrackingId(s, req).value
              && r.response.merchantReference
                 == Or(SuppliedReference(req),
                       if FoundOrder(s, req).Some? then Some(s.orders[FoundOrder(s, req).value].merchantReference)
                       else None)
              && r.response.paymentMethod == replies.status.paymentMethod
              && r.response.confirmationCode == replies.status.confirmationCode
              && r.response.rawStatus == replies.status
    ensures r.response.Verified? && FoundOrder(s, req).Some? ==>
              var id := FoundOrder(s, req).value;
              && Some(StatusName(r.store.orders[id].status)) == Some(r.response.status)
              && r.store.orders[id].trackingId == ResolvedTrackingId(s, req)
              // Only the status and tracking id columns are written.
              && r.store.orders == s.orders[id := s.orders[id].(status := r.store.orders[id].status,
                                                                trackingId := ResolvedTrackingId(s, req))]
              && (|r.store.payments| == |s.payments| + 1
                  <==> r.response.status == "completed" && !HasSinglePayment(s, id))
              && (|r.store.payments| == |s.payments| + 1 ==>
                    r.store.payments[|s.payments|]
                      == PaymentFor(id, s.orders[id], replies.status, r.response.trackingId))
  {
    if !Present(SuppliedTrackingId(req)) && !Present(SuppliedReference(req)) then
      Outcome(s, Error(MissingIds), [])
    else
      var found := FoundOrder(s, req);
      var tracking := ResolvedTrackingId(s, req);
      if !Present(tracking) then Outcome(s, Error(TrackingNotFound), [])
      else if !Present(replies.token) then Outcome(s, Error(TokenFailed), [RequestToken])
      else
        var calls := [RequestToken, GetTransactionStatus(tracking.value)];
        var word := VerifiedStatus(replies.status);
        var response := Verified(word, tracking.value,
                                 Or(SuppliedReference(req),
                                    if found.Some? then Some(s.orders[found.value].merchantReference) else None),
                                 replies.status.paymentMethod, replies.status.confirmationCode,
                                 replies.status);
        if found.None? then Outcome(s, response, calls)
        else
          var id := found.value;
          var s1 := UpdateOrder(s, id, OrderPatch(ParseStatus(word), Some(tracking)));
          if word == "completed" && !HasSinglePayment(s1, id) then
            var p := PaymentFor(id, s.orders[id], replies.status, tracking.value);
            assert (s1.payments + [p])[..|s.payments|] == s.payments;
            Outcome(InsertPayment(s1, p).value, response, calls)
          else
            Outcome(s1, response, calls)
  }

  /** The handler keeps the schema's foreign keys intact. */
  lemma HandleKeepsConsistent(s: Store, req: Request, replies: Replies)
    requires Consistent(s)
    ensures Consistent(Handle(s, req, replies).store)
  {
    var found := FoundOrder(s, req);
    var tracking := ResolvedTrackingId(s, req);
    if found.Some? && Present(tracking) {
      var word := VerifiedStatus(replies.status);
      var p := OrderPatch(ParseStatus(word), Some(tracking));
      UpdateOrderKeepsConsistent(s, found.value, p);
      InsertPaymentKeepsConsistent(UpdateOrder(s, found.value, p),
                                   PaymentFor(found.value, s.orders[found.value], replies.status, tracking.value));
    }
  }
}

=== FILE: webhook.dfy ===
/** `handleWebhook` of the media-order flow: on a completed payment it makes
    sure the buyer has a profile holding the bought items (creating a shadow
    account when there is none), generates a sign-in link, and only then
    marks the order paid. */
module Webhook {
  import opened Common
  import opened MediaOrders

  /** The notification body. */
  datatype Body = Body(trackingId: string, merchantReference: string, status: string)

  /** The answers of the calls the handler cannot see: the auth service's
      `createUser` (the new user's id, or `None` on error) and
      `generateLink` (whether it succeeded), and the message carried by
      whichever call fails. */
  datatype AuthReplies = AuthReplies(newUserId: Option<string>, linkGenerated: bool, errorMessage: string)

  datatype Response = Ignored | Succeeded | Failure(error: string) {
    function Code(): int {
      if Failure? then 500 else 200
    }
  }

  datatype Outcome = Outcome(store: MediaStore, response: Response)

  const CompletedStatus := "COMPLETED"
  const OrderNotFound := "Order not found"
  const PaidStatus := "success"

  /** The profile state after the buyer of `o` has been onboarded, or `None`
      when onboarding fails: the profile lookup finds several rows, the auth
      service refuses the user, or the new profile's id is taken. */
  function Onboard(profiles: map<string, Profile>, o: MediaOrder, auth: AuthReplies): (r: Option<map<string, Profile>>)
    ensures MaybeSingle(ProfilesWithEmail(profiles, o.email)).Many? ==> r.None?
    // A buyer without a profile gets a new one holding exactly the order's items.
    ensures MaybeSingle(ProfilesWithEmail(profiles, o.email)).NoRow? ==>
              (r.Some? <==> auth.newUserId.Some? && auth.newUserId.value !in profiles)
              && (r.Some? ==> r.value == profiles[auth.newUserId.value := Profile(o.email, Some(o.mediaIds))])
    // An existing profile gets the duplicate-free merge of its items and the order's.
    ensures MaybeSingle(ProfilesWithEmail(profiles, o.email)).One? ==>
              var id := MaybeSingle(ProfilesWithEmail(profiles, o.email)).row;
              && id in profiles
              && r == Some(profiles[id := profiles[id].(purchasedItems :=
                             Some(Merge(profiles[id].purchasedItems.GetOr([]), o.mediaIds)))])
  {
    match MaybeSingle(ProfilesWithEmail(profiles, o.email))
    case Many => None
    case NoRow =>
      if auth.newUserId.None? || auth.newUserId.value in profiles then None
      else Some(profiles[auth.newUserId.value := Profile(o.email, Some(o.mediaIds))])
    case One(id) =>
      var held := profiles[id].purchasedItems.GetOr([]);
      Some(profiles[id := profiles[id].(purchasedItems := Some(Merge(held, o.mediaIds)))])
  }

  /** The profiles registered under `email` together hold `items`. */
  predicate Owns(profiles: map<string, Profile>, email: string, items: seq<string>) {
    exists id :: id in profiles && profiles[id].email == email && profiles[id].purchasedItems.Some?
                 && (forall x :: x in items ==> x in profiles[id].purchasedItems.value)
  }

  /** The handler. */
  function Handle(s: MediaStore, b: Body, auth: AuthReplies): (r: Outcome)
    // Anything but a completed payment is acknowledged and ignored.
    ensures b.status != CompletedStatus ==> r == Outcome(s, Ignored)
    ensures b.status == CompletedStatus && b.merchantReference !in s.orders
            ==> r == Outcome(s, Failure(OrderNotFound))
    // The order is marked paid exactly when every step succeeded, and
    // otherwise stays as it was.
    ensures r.response.Succeeded? <==>
              && b.status == CompletedStatus && b.merchantReference in s.orders
              && Onboard(s.profiles, s.orders[b.merchantReference], auth).Some?
              && auth.linkGenerated
    ensures r.response.Succeeded? ==>
              r.store.orders == s.orders[b.merchantReference :=
                s.orders[b.merchantReference].(status := PaidStatus, pesapalId := Some(b.trackingId))]
    ensures !r.response.Succeeded? ==> r.store.orders == s.orders
    // Profile changes happen before the link and are kept if it fails.
    ensures b.status == CompletedStatus && b.merchantReference in s.orders
            && Onboard(s.profiles, s.orders[b.merchantReference], auth).Some?
            ==> r.store.profiles == Onboard(s.profiles, s.orders[b.merchantReference], auth).value
    ensures b.status == CompletedStatus && b.merchantReference in s.orders
            && Onboard(s.profiles, s.orders[b.merchantReference], auth).None?
            ==> r.store == s
    // A paid order's buyer holds its items; no profile is ever removed.
    ensures r.response.Succeeded? ==>
              Owns(r.store.profiles, s.orders[b.merchantReference].email, s.orders[b.merchantReference].mediaIds)
    ensures s.profiles.Keys <= r.store.profiles.Keys
  {
    if b.status != CompletedStatus then Outcome(s, Ignored)
    else if b.merchantReference !in s.orders then Outcome(s, Failure(OrderNotFound))
    else
      var order := s.orders[b.merchantReference];
      var onboarded := Onboard(s.profiles, order, auth);
      if onboarded.None? then Outcome(s, Failure(auth.errorMessage))
      else
        var s1 := s.(profiles := onboarded.value);
        OnboardOwns(s.profiles, order, auth);
        if !auth.linkGenerated then Outcome(s1, Failure(auth.errorMessage))
        else
          Outcome(s1.(orders := s.orders[b.merchantReference :=
                         order.(status := PaidStatus, pesapalId := Some(b.trackingId))]),
                  Succeeded)
  }

  /** Successful onboarding leaves the buyer owning the order's items,
      whether their profile is new or existing. */
  lemma OnboardOwns(profiles: map<string, Profile>, o: MediaOrder, auth: AuthReplies)
    requires Onboard(profiles, o, auth).Some?
    ensures Owns(Onboard(profiles, o, auth).value, o.email, o.mediaIds)
    ensures profiles.Keys <= Onboard(profiles, o, auth).value.Keys
  {
    var ps := Onboard(profiles, o, auth).value;
    match MaybeSingle(ProfilesWithEmail(profiles, o.email))
    case NoRow =>
      var id := auth.newUserId.value;
      assert id in ps && ps[id].email == o.email;
    case One(id) =>
      assert id in ProfilesWithEmail(profiles, o.email);
      assert id in ps && ps[id].email == o.email;
  }

  /** An existing buyer keeps every item bought before. */
  lemma OnboardKeepsPurchases(profiles: map<string, Profile>, o: MediaOrder, auth: AuthReplies, id: string)
    requires MaybeSingle(ProfilesWithEmail(profiles, o.email)) == One(id)
    ensures var ps := Onboard(profiles, o, auth).value;
            id in ps && forall x :: x in profiles[id].purchasedItems.GetOr([]) ==> x in ps[id].purchasedItems.value
  {
    assert id in ProfilesWithEmail(profiles, o.email);
  }

  /** A redelivered notification for an order whose item list has no
      duplicates changes nothing: the buyer's profile is found again and the
      merge of the same items is idempotent. */
  lemma RedeliveryChangesNothing(s: MediaStore, b: Body, auth: AuthReplies)
    requires Handle(s, b, auth).response.Succeeded?
    requires NoDuplicates(s.orders[b.merchantReference].mediaIds)
    ensures var s1 := Handle(s, b, auth).store;
            Handle(s1, b, auth) == Outcome(s1, Succeeded)
  {
    var o := s.orders[b.merchantReference];
    var s1 := Handle(s, b, auth).store;
    var o1 := s1.orders[b.merchantReference];
    assert o1.email == o.email && o1.mediaIds == o.mediaIds;
    var ps := s1.profiles;
    match MaybeSingle(ProfilesWithEmail(s.profiles, o.email))
    case NoRow =>
      var id := auth.newUserId.value;
      assert ProfilesWithEmail(ps, o.email) == {id};
      DedupAppendKnown(o.mediaIds, o.mediaIds);
      DedupOfDistinct(o.mediaIds);
      assert ps[id := ps[id].(purchasedItems := Some(Merge(o.mediaIds, o.mediaIds)))] == ps;
    case One(id) =>
      assert id in ProfilesWithEmail(s.profiles, o.email);
      assert ProfilesWithEmail(ps, o.email) == ProfilesWithEmail(s.profiles, o.email);
      var held := s.profiles[id].purchasedItems.GetOr([]);
      MergeIdempotent(held, o.mediaIds);
      assert ps[id := ps[id].(purchasedItems := Some(Merge(Merge(held, o.mediaIds), o.mediaIds)))] == ps;
  }
}
